=== FILE: README.md ===
# Contact form: a Dafny model of its decision logic

The site's contact form has two halves.

**The `POST /api/contact` handler** (`src/app/api/contact/route.ts`) takes a
JSON body `{name, email, message}` and works in this order:

1. a fixed-window rate check per client key;
2. a presence check on the raw fields;
3. a sanitiser (trim, then delete `<`/`>`, `javascript:` and `on\w+=`);
4. an email-pattern check and a message-length check on the sanitised values;
5. four awaited effects in order: store the record, mail the administrator,
   mail the sender, disconnect the database client; the answer is 200 only
   after all four, and any exception on the way lands in a `catch` block that
   disconnects once more and answers 500.

**The page** (`src/app/page.tsx`), in its submit handler, checks the
handler's email pattern and message-length window on the raw values, plus a
2..100 name length the handler does not have, before it sends anything. After a 429 reply it runs a one-hour countdown that
disables the submit button, and shows it as `Xh Ym Zs`.

The model is made of pure functions over immutable values:

| file | module | what it models |
|---|---|---|
| `text.dfy` | `Text` | JavaScript whitespace, `\w`, case folding under the `i` flag, `trim`, and the "only deletes characters" relation |
| `sanitize.dfy` | `Sanitize` | Each global `replace(re, '')` as a left-to-right scan that deletes non-overlapping matches (`Strip`), and `sanitizeInput` as three such scans after `Trim` |
| `validation.dfy` | `Validation` | The email regular expression and the message-length window |
| `client_identity.dfy` | `ClientIdentity` | The rate-limit key taken from `x-forwarded-for` |
| `rate_limit.dfy` | `RateLimit` | The `requestCounts` map as a `map<string, Entry>` with a step function, plus runs of steps |
| `contact_route.dfy` | `ContactRoute` | The handler |
| `contact_page.dfy` | `ContactPage` | The page's state as a `Page` value, and the functions that update it |

In the handler model:
- the clock is the parameter `now`;
- the database and the mail transport are an oracle `succeeds: Effect -> bool`;
- the answer comes with the list of effects attempted, in order.

Facts about the code worth knowing before reading the model:
- **Sanitising is not idempotent.** `"< x"` sanitises to `" x"` and then to `"x"` (`SanitizeIsNotIdempotent`). A `javascript:` can also survive sanitising (`SanitizeCanLeaveScheme`).
- **The window is in milliseconds.** It is `3600000` in the units of `Date.now()`, and the model uses that value.
- **The email pattern's dot need not be the last one.** The pattern needs some `.` inside the part after the `@` with at least one character on each side; `a@b.c.` matches. `Validation.WellFormedAddress` states the shape.

## Model

| member | source | states |
|---|---|---|
| Text.Trim | src/app/api/contact/route.ts:34 | `trim` returns a middle slice of the input with no whitespace at either end; everything cut off on both sides is whitespace |
| Text.TrimDeletesOnly | src/app/api/contact/route.ts:34 | trimming only deletes characters and leaves input without edge whitespace unchanged |
| Sanitize.MatchLength | src/app/api/contact/route.ts:35-37 | the match the regular expression finds at a position is a word of the pattern's language (`[<>]`, `javascript:` or `on\w+=`, both without regard to ASCII case) |
| Sanitize.MatchIsUnique | src/app/api/contact/route.ts:35-37 | the three patterns are prefix-free, so any word of the language at a position is exactly the match found there |
| Sanitize.Strip | src/app/api/contact/route.ts:35-37 | no contract; the left-to-right scan of a global `replace` with `''`, whose properties `StripDeletesOnly`, `StripWithoutMatch` and `StripKeepsUnmatchedPrefix` state |
| Sanitize.StripDeletesOnly | src/app/api/contact/route.ts:35-37 | a global replace with `''` yields a subsequence of its input |
| Sanitize.StripWithoutMatch | src/app/api/contact/route.ts:35-37 | a global replace whose pattern matches no substring returns its input |
| Sanitize.StripAngleBrackets | src/app/api/contact/route.ts:35 | deleting `[<>]` leaves no angle bracket and keeps every other character, in order and as often as it occurred |
| Sanitize.SanitizeInput | src/app/api/contact/route.ts:32-38 | no contract; trim, then delete `[<>]`, `javascript:` and `on\w+=` in that order, whose properties the `Sanitize*` lemmas below state |
| Sanitize.SanitizeRemovesAngleBrackets | src/app/api/contact/route.ts:32-38 | the sanitiser's output never contains `<` or `>`, since the later deletions cannot bring one back |
| Sanitize.SanitizeDeletesOnly | src/app/api/contact/route.ts:32-38 | the sanitiser's output is a subsequence of its input and never longer |
| Sanitize.SanitizeKeepsCleanInput | src/app/api/contact/route.ts:32-38 | input with no edge whitespace, no angle bracket and no match of either other pattern is returned unchanged |
| Sanitize.SanitizeIsNotIdempotent | src/app/api/contact/route.ts:33-35 | `"< x"` sanitises to `" x"`, which sanitises again to `"x"`: trimming runs before the bracket is deleted |
| Sanitize.SanitizeBracketBeforeSpace | src/app/api/contact/route.ts:33-35 | a `<` in front of a space protects the space from trimming |
| Sanitize.SanitizeLeadingSpace | src/app/api/contact/route.ts:33-34 | a single leading space is trimmed off text that triggers no deletion |
| Sanitize.StripKeepsUnmatchedPrefix | src/app/api/contact/route.ts:36 | a prefix with no match starting in it passes a global replace unchanged |
| Sanitize.StripLeadingScheme | src/app/api/contact/route.ts:36 | a `javascript:` at the front is deleted whole and the scan resumes after it |
| Sanitize.StripSchemeOnce | src/app/api/contact/route.ts:36 | on `java` + `javascript:` + text with no `j`, one pass deletes only the inner match |
| Sanitize.SanitizeRejoinsScheme | src/app/api/contact/route.ts:32-38 | deleting an inner `javascript:` can join its neighbours into a new one that stays in the output |
| Sanitize.SanitizeCanLeaveScheme | src/app/api/contact/route.ts:32-38 | `"javajavascript:script:"` sanitises to `"javascript:"` |
| Sanitize.StripAngleBracketsAppend | src/app/api/contact/route.ts:35 | deleting `[<>]` distributes over concatenation |
| Sanitize.StripTagged | src/app/api/contact/route.ts:35 | on an element wrapped in tags, the bracket deletion removes exactly the four brackets |
| Sanitize.SanitizeTagged | src/app/api/contact/route.ts:32-38 | an element wrapped in tags keeps its tag names and body and loses only the brackets |
| Sanitize.SanitizeScriptTag | src/app/api/contact/route.ts:32-38 | `<script>alert(1)</script>` becomes `scriptalert(1)/script` |
| Sanitize.NoColonNoScheme | src/app/api/contact/route.ts:36 | `javascript:` cannot match in text without a colon |
| Sanitize.NoEqualsNoHandler | src/app/api/contact/route.ts:37 | `on\w+=` cannot match in text without `=` |
| Sanitize.NoLetterJNoScheme | src/app/api/contact/route.ts:36 | `javascript:` cannot match in text without `j` or `J` |
| Sanitize.NoLetterONoHandler | src/app/api/contact/route.ts:37 | `on\w+=` cannot match in text without `o` or `O` |
| Sanitize.SanitizeDropsLeadingBracket | src/app/api/contact/route.ts:32-38 | a single `<` before plain text is the only character removed |
| Sanitize.SanitizeKeepsPlainText | src/app/api/contact/route.ts:32-38 | text with no edge whitespace and none of `<`, `>`, `:`, `=` is stored as typed |
| Sanitize.SanitizeBlank | src/app/api/contact/route.ts:32-38 | whitespace-only text sanitises to the empty string |
| Validation.IsValidEmail | src/app/api/contact/route.ts:22-25 | no contract; the regular expression as "some `@` and `.` split the string into three non-empty runs of `[^\s@]`", which `EmailRegexShape` characterises |
| Validation.IsValidMessage | src/app/api/contact/route.ts:27-29 | no contract; the length window 10..1000, checked against `ValidateField` and used by `Check` |
| Validation.EmailRegexShape | src/app/api/contact/route.ts:22-25 | the email pattern holds exactly when there is no whitespace, there is exactly one `@` with something before it, and the part after it has a `.` that is not its first or last character |
| Validation.EmailExamples | src/app/api/contact/route.ts:22-25 | `jo@x.com` is accepted and `not-an-email` is refused |
| ClientIdentity.FirstField | src/app/api/contact/route.ts:46 | `split(',')[0]` is a comma-free prefix that ends at the first comma or at the end |
| ClientIdentity.ClientKey | src/app/api/contact/route.ts:45-46 | the key has no comma; it is `unknown` for a missing or empty header, and otherwise the header up to its first comma |
| ClientIdentity.FirstFieldUnique | src/app/api/contact/route.ts:46 | the first field is the only comma-free prefix that ends at a comma or at the end |
| ClientIdentity.SentinelIsShared | src/app/api/contact/route.ts:46 | requests without the header share a bucket with a client whose header is `unknown` |
| ClientIdentity.KeyOfList | src/app/api/contact/route.ts:46 | for a comma-separated list, the key is its first entry |
| ClientIdentity.KeyExamples | src/app/api/contact/route.ts:46 | `unknown, 10.0.0.1` falls into the shared bucket and `,10.0.0.1` yields the empty key |
| ClientIdentity.FieldBeforeComma | src/app/api/contact/route.ts:46 | nothing after the first comma affects the key |
| RateLimit.Step | src/app/api/contact/route.ts:49-66 | a rejection changes nothing and needs five requests on record inside the window; an allowed step touches only its own key, resets an unseen or expired entry to `(1, now)`, and otherwise counts up while keeping the window start |
| RateLimit.StepKeepsCountsInRange | src/app/api/contact/route.ts:50-66 | a step keeps every stored count in 1..5 |
| RateLimit.ReplayKeepsCountsInRange | src/app/api/contact/route.ts:50-66 | from a map in range, and so from the empty map, any request sequence keeps every count in 1..5 |
| RateLimit.Run | src/app/api/contact/route.ts:49-66 | a run of requests from one key gives one decision per request |
| RateLimit.WithinWindow | src/app/api/contact/route.ts:55-65 | inside one window, a key with `c` requests on record is allowed `5 - c` more, and then only rejected; the window start never moves |
| RateLimit.FreshKeyWindow | src/app/api/contact/route.ts:6-7 | for a key never seen, the first five requests within the window of the first one are allowed and every later one in that window is rejected |
| RateLimit.FreshAfterExpiry | src/app/api/contact/route.ts:52-54 | after a window has expired, a new window of five allowed requests starts |
| RateLimit.RunAppendStore | src/app/api/contact/route.ts:49-66 | two batches of requests leave the same map as their concatenation |
| RateLimit.RunAppend | src/app/api/contact/route.ts:49-66 | two batches of requests get the same decisions as their concatenation |
| RateLimit.FirstWindowFilled | src/app/api/contact/route.ts:49-66 | five requests at the start and at the last instant of a fresh window are allowed and fill it |
| RateLimit.BurstAcrossWindowEdge | src/app/api/contact/route.ts:52-65 | the window is fixed, not sliding: ten requests are all allowed though nine of them arrive within one millisecond — one at the start of a fresh window, four at its last instant, five one millisecond later |
| RateLimit.Replay | src/app/api/contact/route.ts:49-66 | no contract; the map after requests from any keys, whose invariant `ReplayKeepsCountsInRange` states |
| ContactRoute.Plan | src/app/api/contact/route.ts:101-139 | no contract; the effects of an accepted body in order — persist, admin mail, sender mail, disconnect — whose use `Process`, `PerformStopsAtLast` and `PlainSubmissionSucceeds` state |
| ContactRoute.Fail | src/app/api/contact/route.ts:144-150 | no contract; the `catch` block, which disconnects once more and answers the JSON 500, as `Process` and `LateDisconnectFailure` state |
| ContactRoute.Perform | src/app/api/contact/route.ts:101-150 | effects run in order until the first failure; that failure is the last effect attempted, and success means every effect ran and succeeded |
| ContactRoute.PerformStopsAtLast | src/app/api/contact/route.ts:101-139 | when only the last effect fails, every effect is attempted |
| ContactRoute.Check | src/app/api/contact/route.ts:68-99 | the checks in order: an unreadable body throws; a falsy raw field gives `All fields are required`; a truthy non-string throws when sanitised; then the email, then the message length, each stated as an iff |
| ContactRoute.Process | src/app/api/contact/route.ts:68-150 | a 400 performs nothing and carries the check's error; 200 exactly when the body is accepted and persist, admin mail, sender mail and disconnect all ran on the sanitised fields and succeeded; every other answer comes from the `catch` block, whose disconnect is the last effect and decides between the JSON 500 and a rejected handler; for an accepted body the effects before it are a prefix of the plan ending at the one that failed |
| ContactRoute.Handle | src/app/api/contact/route.ts:44-66 | a 429 with `Too many requests` comes exactly from a rejected rate step and performs and changes nothing; every other answer, 400 and 500 included, is `Process`'s answer and leaves the rate slot consumed |
| ContactRoute.FalsyFieldRefused | src/app/api/contact/route.ts:73-78 | a falsy non-string field such as `0`, `false` or `null` gets `All fields are required` and nothing is performed |
| ContactRoute.TruthyNonStringThrows | src/app/api/contact/route.ts:80-83 | a truthy non-string field makes sanitising throw, and the `catch` block disconnects and answers 500 |
| ContactRoute.LateDisconnectFailure | src/app/api/contact/route.ts:139-150 | when only the final disconnect fails, the record is stored and both mails are sent, yet the client gets a 500, or no JSON answer when the second disconnect fails too |
| ContactRoute.BlankNameIsStoredEmpty | src/app/api/contact/route.ts:73-81 | a whitespace-only name passes the presence check and is stored as `""` |
| ContactRoute.PlainSubmissionSucceeds | src/app/api/contact/route.ts:80-143 | plain valid fields are stored and mailed verbatim, the client is disconnected, and the answer is the thank-you message when every effect succeeds |
| ContactRoute.ExampleSubmission | src/app/api/contact/route.ts:101-143 | `Jo`, `jo@x.com`, `Hello there, testing.` succeed, with the record stored, both mails sent and the client disconnected |
| ContactRoute.ShortMessageRefused | src/app/api/contact/route.ts:93-99 | a valid address with a message shorter than ten characters gets the message-length 400 and nothing happens |
| ContactRoute.ExampleShortMessage | src/app/api/contact/route.ts:93-99 | a five-character message gets `Message must be between 10 and 1000 characters` |
| ContactRoute.BadEmailRefused | src/app/api/contact/route.ts:85-91 | a plain address the pattern refuses gets the email 400 and nothing happens |
| ContactRoute.ExampleBadEmail | src/app/api/contact/route.ts:85-91 | `not-an-email` gets `Invalid email format` |
| ContactPage.ValidateField | src/app/page.tsx:52-69 | a name has no error exactly when its length is 2..100, and otherwise says it is too short or too long; an email has none exactly when the route's pattern holds, and otherwise says it is required when empty or invalid; a message has none exactly when the route's length window holds, and otherwise says it is too short or too long; any other field never has one |
| ContactPage.Edit | src/app/page.tsx:71-75 | typing stores the value in its field and that field's error, and changes nothing else |
| ContactPage.BeginSubmit | src/app/page.tsx:80-94 | once the browser has let the submit through, all three errors are shown; the request is sent, and the status becomes loading, exactly when the client's rules all hold; otherwise only the errors change |
| ContactPage.FinishSubmit | src/app/page.tsx:105-123 | an OK reply succeeds, shows the server's message and clears the form; any other reply fails, keeps the form and shows the server's `error`, or `Something went wrong. Please try again.` when that is empty or the request failed; only a 429 sets the cooldown, to 3600 |
| ContactPage.Tick | src/app/page.tsx:32-38 | the tick never goes negative, sends 1 and below to 0, and counts a larger cooldown down by one |
| ContactPage.Ticks | src/app/page.tsx:28-42 | no contract; the cooldown after `n` firings, whose closed form `Countdown` states |
| ContactPage.Countdown | src/app/page.tsx:30-38 | after `n` ticks a cooldown `p` reads `p - n`, or 0 once `n >= p` |
| ContactPage.SubmitDisabled | src/app/page.tsx:280 | no contract; the button is disabled while loading or cooling down, which `CooldownLastsOneHour` and `RateLimitedSubmitStartsCooldown` use |
| ContactPage.CooldownLastsOneHour | src/app/page.tsx:116-118 | after a 429, the button stays disabled for exactly 3600 ticks |
| ContactPage.SplitCooldown | src/app/page.tsx:46-48 | hours, minutes and seconds recombine to the input, with minutes and seconds below 60 |
| ContactPage.SplitIsUnique | src/app/page.tsx:46-48 | that split is the only one with minutes and seconds below 60 |
| ContactPage.NatToString | src/app/page.tsx:49 | no contract; a number in a template literal, whose meaning `NatToStringRoundTrip` states |
| ContactPage.NatToStringRoundTrip | src/app/page.tsx:49 | a number shows as a non-empty string of decimal digits without a leading zero that reads back as the number |
| ContactPage.DigitsBeforeUnit | src/app/page.tsx:49 | the digits in front of a unit letter are fixed by the rendered text |
| ContactPage.RenderingsAgree | src/app/page.tsx:49 | two `Xh Ym Zs` renderings with digit-only parts are equal only part for part |
| ContactPage.FormatCooldownTimeReadsBack | src/app/page.tsx:45-50 | the rendered cooldown reads back as the seconds shown, with minutes and seconds below 60 |
| ContactPage.FormatCooldownTime | src/app/page.tsx:45-50 | no contract; `Xh Ym Zs` from the split of the seconds, whose meaning `SplitCooldown`, `SplitIsUnique`, `NatToStringRoundTrip` and `FormatCooldownTimeReadsBack` state |
| ContactPage.FormatFullCooldown | src/app/page.tsx:10 | the full cooldown shows as `1h 0m 0s` |
| ContactPage.ReplyOf | src/app/page.tsx:105-122 | the page sees the handler's status and message; `response.ok` holds exactly for the handler's 200; every JSON error answer carries the handler's error text; a rejected handler's answer has no JSON, so the page lands in its `catch` block |
| ContactPage.RateLimitedSubmitStartsCooldown | src/app/page.tsx:111-118 | a valid form sent into a rate-limited key performs nothing on the server and leaves the map alone; the page keeps the form, shows `Too many requests. Please try again later.` and disables the button |
| ContactPage.ClientValidPlainFormIsAccepted | src/app/page.tsx:80-92 | a form that passes the page's rules and is plain for the sanitiser passes the handler's checks, and succeeds when every effect does |
| ContactPage.ServerIgnoresNameLength | src/app/page.tsx:54-57 | the handler has no name-length rule: a plain name the page refuses is accepted when posted directly |
| ContactPage.BracketPaddedMessageRefused | src/app/page.tsx:62-65 | the page measures the raw message and the handler the sanitised one: `<` plus nine plain characters passes the page and gets the handler's length 400 |
| ContactPage.ExampleBracketPaddedMessage | src/app/page.tsx:62-65 | `<Hello sir` passes the page's check and is refused by the handler |

## Left out

- The page's markup is not modelled. Styling, images, links and the services list carry no decisions.
- The browser's own checks from the form's markup (`required`, `maxLength` and `type="email"`, `src/app/page.tsx:201-242`) are not modelled. They can block a submit before `handleSubmit` runs; for example, `type="email"` refuses `a@b.c.`, which the handler's pattern accepts. `maxLength` also means `NAME_TOO_LONG` cannot come from typing. `BeginSubmit` models `handleSubmit` once the browser has let the submit through.
- The mail transport setup, `sendMail` and the Prisma client are foreign I/O. `create`, both `sendMail` calls and both `$disconnect` calls appear only as effects that succeed or fail through the `succeeds` oracle. The two disconnects are separate effects, so the oracle decides each independently.
- Creating the Prisma client, which happens before the `try` block, is assumed not to throw.
- A rejected handler (`Unhandled`) is assumed to reach the page as a 500 without a JSON body. That answer comes from the framework, which is not part of this model.
- The record's creation time is not modelled, and neither are the HTML mail templates, the `\n` to `<br>` rewriting and `toLocaleString`. These are presentation text.
- `request.json()` is not modelled. A body it cannot parse, and JSON `null`, which the destructuring cannot take apart, are one `Malformed` body. That body answers 500 from the `catch` block after the rate slot has been consumed.
- A non-string field keeps only its truthiness (`NonString`). A falsy one fails the presence check with 400. A truthy one makes sanitising throw once all three fields are present.
- Nothing is logged: the `console.error` call is not modelled.
- `Date.now()` is not modelled. The time is the parameter `now`.
- The timer mechanics of `useEffect` and `setInterval` are left out, including clearing the interval. One firing is `Tick`, and n firings are `Ticks`.
- Concurrent access to `requestCounts` and the unbounded growth of the map are left out. The map is a plain value threaded through the steps.
- String length counts characters. UTF-16 code units are not distinguished.
- A reply whose JSON cannot be parsed lands in the page's `catch` and is folded into `FetchFailed`, as is a failed `fetch`.
- A successful reply without a `message` field shows `""` rather than `undefined`.
- The minimum name length, 2, is an inline literal in the page's source. The model names it `MIN_NAME_LENGTH`.

=== FILE: client_identity.dfy ===
/**
  The rate-limit key of a request: the first comma-separated field of the
  `x-forwarded-for` header, or the sentinel `unknown` when the header is
  absent or empty.
 */
module ClientIdentity {
  import opened Wrappers

  const UNKNOWN: string := "unknown"

  /** `v.split(',')[0]`: the text before the first comma, or all of `v`. */
  function FirstField(v: string): (f: string)
    ensures |f| <= |v| && f == v[..|f|]
    ensures ',' !in f
    ensures |f| < |v| ==> v[|f|] == ','
  {
    if |v| == 0 || v[0] == ',' then []
    else
      var rest := FirstField(v[1..]);
      assert v[1..][..|rest|] == v[1..|rest| + 1];
      [v[0]] + rest
  }

  /** The client key; `forwardedFor` is the header's value, `None` when the
      request has no such header. An empty header is falsy and so also
      yields the sentinel. */
  function ClientKey(forwardedFor: Option<string>): (key: string)
    ensures ',' !in key
    ensures forwardedFor == None || forwardedFor == Some("") ==> key == UNKNOWN
    ensures forwardedFor.Some? && forwardedFor.value != "" ==>
      && |key| <= |forwardedFor.value|
      && key == forwardedFor.value[..|key|]
      && (|key| == |forwardedFor.value| || forwardedFor.value[|key|] == ',')
  {
    match forwardedFor
    case Some(v) => if v != "" then FirstField(v) else UNKNOWN
    case None => UNKNOWN
  }

  /** The first field is the only prefix that is free of commas and ends at
      a comma or at the end. */
  lemma FirstFieldUnique(v: string, f: string)
    requires |f| <= |v| && f == v[..|f|] && ',' !in f
    requires |f| == |v| || v[|f|] == ','
    ensures FirstField(v) == f
  {
    var g := FirstField(v);
    assert |g| == |f|;
  }

  /** Requests without the header share one bucket with a client whose
      header literally reads `unknown`. */
  lemma SentinelIsShared()
    ensures ClientKey(None) == ClientKey(Some(UNKNOWN))
  {
    FirstFieldUnique(UNKNOWN, UNKNOWN);
  }

  /** The key of a header listing several addresses is its first entry. */
  lemma KeyOfList(u: string, w: string)
    requires ',' !in u
    ensures ClientKey(Some(u + "," + w)) == u
  {
    FieldBeforeComma(u, w);
  }

  /** A header that starts with `unknown,` joins the shared bucket, and one
      that starts with a comma yields the empty key. */
  lemma KeyExamples()
    ensures ClientKey(Some("unknown, 10.0.0.1")) == UNKNOWN
    ensures ClientKey(Some(",10.0.0.1")) == ""
  {
    assert UNKNOWN + "," + " 10.0.0.1" == "unknown, 10.0.0.1";
    assert "" + "," + "10.0.0.1" == ",10.0.0.1";
    KeyOfList(UNKNOWN, " 10.0.0.1");
    KeyOfList("", "10.0.0.1");
  }

  /** Whatever follows the first comma does not affect the key. */
  lemma FieldBeforeComma(u: string, w: string)
    requires ',' !in u
    ensures FirstField(u + "," + w) == u
  {
    var v := u + "," + w;
    assert v[..|u|] == u && v[|u|] == ',';
    FirstFieldUnique(v, u);
  }
}

=== FILE: contact_page.dfy ===
/**
  The client half of the contact form: per-field validation, the submit gate,
  the handling of the server's reply, the one-second cooldown tick after a
  429, the `Xh Ym Zs` rendering of the cooldown, and the disabled state of
  the submit button. React state becomes an immutable `Page` value.
 */
module ContactPage {
  import opened Sanitize
  import opened Validation
  import opened Wrappers
  import opened ClientIdentity
  import opened RateLimit
  import ContactRoute

  const MIN_NAME_LENGTH: nat := 2
  const MAX_NAME_LENGTH: nat := 100
  /** One hour in seconds. */
  const RATE_LIMIT_COOLDOWN: nat := 3600

  const NAME_TOO_SHORT: string := "Name must be at least 2 characters"
  const NAME_TOO_LONG: string := "Name must be less than 100 characters"
  const EMAIL_REQUIRED: string := "Email is required"
  const EMAIL_INVALID: string := "Please enter a valid email address"
  const MESSAGE_TOO_SHORT: string := "Message must be at least 10 characters"
  const MESSAGE_TOO_LONG: string := "Message must be less than 1000 characters"
  const SOMETHING_WRONG: string := "Something went wrong. Please try again."

  /** `validateField`: the error shown under a field, `""` when there is none. */
  function ValidateField(field: string, value: string): (error: string)
    ensures field == "name" ==> (error == "" <==> MIN_NAME_LENGTH <= |value| <= MAX_NAME_LENGTH)
    ensures field == "email" ==> (error == "" <==> IsValidEmail(value))
    ensures field == "message" ==> (error == "" <==> IsValidMessage(value))
    ensures field != "name" && field != "email" && field != "message" ==> error == ""
    ensures field == "name" && |value| < MIN_NAME_LENGTH ==> error == NAME_TOO_SHORT
    ensures field == "name" && |value| > MAX_NAME_LENGTH ==> error == NAME_TOO_LONG
    ensures field == "email" && value == "" ==> error == EMAIL_REQUIRED
    ensures field == "email" && value != "" && !IsValidEmail(value) ==> error == EMAIL_INVALID
    ensures field == "message" && |value| < MIN_MESSAGE_LENGTH ==> error == MESSAGE_TOO_SHORT
    ensures field == "message" && |value| > MAX_MESSAGE_LENGTH ==> error == MESSAGE_TOO_LONG
  {
    if field == "name" then
      if |value| < MIN_NAME_LENGTH then NAME_TOO_SHORT
      else if |value| > MAX_NAME_LENGTH then NAME_TOO_LONG
      else ""
    else if field == "email" then
      if value == "" then EMAIL_REQUIRED
      else if !IsValidEmail(value) then EMAIL_INVALID
      else ""
    else if field == "message" then
      if |value| < MIN_MESSAGE_LENGTH then MESSAGE_TOO_SHORT
      else if |value| > MAX_MESSAGE_LENGTH then MESSAGE_TOO_LONG
      else ""
    else ""
  }

  datatype FormStatus = Idle | Loading | Succeeded | Failed

  datatype FormData = FormData(name: string, email: string, message: string)

  datatype Errors = Errors(name: string, email: string, message: string)

  const EMPTY_FORM: FormData := FormData("", "", "")

  /** The component's state. */
  datatype Page = Page(status: FormStatus, formMessage: string, cooldown: int, form: FormData, errors: Errors)

  /** The errors of all three fields. */
  function ValidateAll(form: FormData): Errors {
    Errors(ValidateField("name", form.name), ValidateField("email", form.email), ValidateField("message", form.message))
  }

  /** `handleChange`: typing into one field stores the value and shows that
      field's error; the other field and its error stay as they were. */
  function Edit(page: Page, field: string, value: string): (p: Page)
    requires field == "name" || field == "email" || field == "message"
    ensures p.status == page.status && p.formMessage == page.formMessage && p.cooldown == page.cooldown
    ensures field == "name" ==> p.form == page.form.(name := value) && p.errors == page.errors.(name := ValidateField("name", value))
    ensures field == "email" ==> p.form == page.form.(email := value) && p.errors == page.errors.(email := ValidateField("email", value))
    ensures field == "message" ==> p.form == page.form.(message := value) && p.errors == page.errors.(message := ValidateField("message", value))
  {
    var error := ValidateField(field, value);
    if field == "name" then page.(form := page.form.(name := value), errors := page.errors.(name := error))
    else if field == "email" then page.(form := page.form.(email := value), errors := page.errors.(email := error))
    else page.(form := page.form.(message := value), errors := page.errors.(message := error))
  }

  /** The client's own rules for a form it will send. */
  predicate ClientValid(form: FormData) {
    && MIN_NAME_LENGTH <= |form.name| <= MAX_NAME_LENGTH
    && IsValidEmail(form.email)
    && IsValidMessage(form.message)
  }

  datatype SubmitStart = SubmitStart(page: Page, send: bool)

  /** The first half of `handleSubmit`: show the errors of all three fields,
      and send the request (entering `Loading`) only when there are none. */
  function BeginSubmit(page: Page): (r: SubmitStart)
    ensures r.page.errors == ValidateAll(page.form)
    ensures r.send <==> ClientValid(page.form)
    ensures r.send ==> r.page == page.(errors := r.page.errors, status := Loading)
    ensures !r.send ==> r.page == page.(errors := r.page.errors)
  {
    var errors := ValidateAll(page.form);
    if errors.name != "" || errors.email != "" || errors.message != "" then
      SubmitStart(page.(errors := errors), false)
    else
      SubmitStart(page.(errors := errors, status := Loading), true)
  }

  /** What `fetch` delivers: a reply whose JSON body carries `message` or
      `error` (`""` when absent), or a failure of the request or of parsing. */
  datatype Reply = Reply(status: int, message: string, error: string) | FetchFailed

  /** `response.ok`. */
  predicate IsOk(reply: Reply) {
    reply.Reply? && 200 <= reply.status <= 299
  }

  /** The second half of `handleSubmit`: the form is cleared only on an OK
      reply, a 429 starts the one-hour cooldown, and the field errors stay. */
  function FinishSubmit(page: Page, reply: Reply): (p: Page)
    ensures p.errors == page.errors
    ensures IsOk(reply) ==> p.status == Succeeded && p.form == EMPTY_FORM && p.formMessage == reply.message
    ensures !IsOk(reply) ==> p.status == Failed && p.form == page.form && p.formMessage != ""
    ensures reply.Reply? && !IsOk(reply) ==> p.formMessage == if reply.error != "" then reply.error else SOMETHING_WRONG
    ensures reply.FetchFailed? ==> p.formMessage == SOMETHING_WRONG
    ensures p.cooldown == if reply.Reply? && reply.status == 429 then RATE_LIMIT_COOLDOWN else page.cooldown
  {
    match reply
    case FetchFailed => page.(status := Failed, formMessage := SOMETHING_WRONG)
    case Reply(status, message, error) =>
      if IsOk(reply) then page.(status := Succeeded, formMessage := message, form := EMPTY_FORM)
      else
        var shown := if error != "" then error else SOMETHING_WRONG;
        var cooldown := if status == 429 then RATE_LIMIT_COOLDOWN else page.cooldown;
        page.(status := Failed, formMessage := shown, cooldown := cooldown)
  }

  /** The submit button is disabled while a request is in flight or the
      cooldown runs. */
  predicate SubmitDisabled(page: Page) {
    page.status == Loading || page.cooldown > 0
  }

  /** One firing of the cooldown timer. */
  function Tick(prev: int): (next: int)
    ensures next >= 0
    ensures prev <= 1 ==> next == 0
    ensures prev >= 1 ==> next == prev - 1
  {
    if prev <= 1 then 0 else prev - 1
  }

  /** The cooldown after `n` firings of the timer. */
  function Ticks(p: int, n: nat): int
    decreases n
  {
    if n == 0 then p else Ticks(Tick(p), n - 1)
  }

  /** The cooldown counts down by one per firing and stops at zero. */
  lemma {:induction false} Countdown(p: nat, n: nat)
    ensures Ticks(p, n) == if n < p then p - n else 0
    decreases n
  {
    if n > 0 {
      Countdown(Tick(p), n - 1);
    }
  }

  /** After a 429 the button stays disabled for exactly 3600 firings of the timer. */
  lemma CooldownLastsOneHour(page: Page, reply: Reply, n: nat)
    requires reply.Reply? && reply.status == 429
    ensures var p := FinishSubmit(page, reply);
      SubmitDisabled(p.(cooldown := Ticks(p.cooldown, n))) <==> n < RATE_LIMIT_COOLDOWN
  {
    Countdown(RATE_LIMIT_COOLDOWN, n);
  }

  /** A cooldown split into hours, minutes and seconds. */
  datatype Clock = Clock(hours: nat, minutes: nat, seconds: nat)

  /** The arithmetic of `formatCooldownTime`. */
  function SplitCooldown(s: nat): (c: Clock)
    ensures c.hours * 3600 + c.minutes * 60 + c.seconds == s
    ensures c.minutes < 60 && c.seconds < 60
  {
    var c := Clock(s / 3600, (s % 3600) / 60, s % 60);
    assert c.hours * 3600 + c.minutes * 60 + c.seconds == s by {
      var r := s % 3600;
      assert s == c.hours * 3600 + r;
      assert r == c.minutes * 60 + r % 60;
      assert s == (c.hours * 60 + c.minutes) * 60 + r % 60;
      assert s % 60 == r % 60;
    }
    c
  }

  /** The split is the only one with minutes and seconds below sixty. */
  lemma SplitIsUnique(s: nat, c: Clock)
    requires c.hours * 3600 + c.minutes * 60 + c.seconds == s
    requires c.minutes < 60 && c.seconds < 60
    ensures c == SplitCooldown(s)
  {
    var d := SplitCooldown(s);
    var r := c.minutes * 60 + c.seconds;
    assert 0 <= r < 3600;
    assert c.hours == s / 3600 && r == s % 3600;
    assert c.minutes == r / 60 && c.seconds == r % 60;
  }

  /** The decimal digit of a value below ten. */
  function Digit(d: nat): char
    requires d < 10
  {
    ('0' as int + d) as char
  }

  predicate IsDigit(c: char) {
    '0' <= c <= '9'
  }

  /** How a number appears in a template literal. */
  function NatToString(n: nat): string
    decreases n
  {
    if n < 10 then [Digit(n)] else NatToString(n / 10) + [Digit(n % 10)]
  }

  /** The value of a string of decimal digits. */
  function DecimalValue(s: string): nat
    requires forall k | 0 <= k < |s| :: IsDigit(s[k])
    decreases |s|
  {
    if |s| == 0 then 0
    else
      var init := s[..|s| - 1];
      assert forall k | 0 <= k < |init| :: init[k] == s[k];
      assert IsDigit(s[|s| - 1]);
      DecimalValue(init) * 10 + (s[|s| - 1] as int - '0' as int)
  }

  /** A number renders as decimal digits without a leading zero that read back as the number. */
  lemma {:induction false} NatToStringRoundTrip(n: nat)
    ensures |NatToString(n)| > 0
    ensures forall k | 0 <= k < |NatToString(n)| :: IsDigit(NatToString(n)[k])
    ensures DecimalValue(NatToString(n)) == n
    ensures n > 0 ==> NatToString(n)[0] != '0'
    decreases n
  {
    if n >= 10 {
      NatToStringRoundTrip(n / 10);
      var s := NatToString(n);
      assert s[..|s| - 1] == NatToString(n / 10);
    }
  }

  /** `formatCooldownTime`. */
  function FormatCooldownTime(seconds: nat): string {
    var c := SplitCooldown(seconds);
    NatToString(c.hours) + ("h " + (NatToString(c.minutes) + ("m " + (NatToString(c.seconds) + "s"))))
  }

  predicate AllDigits(s: string) {
    forall k | 0 <= k < |s| :: IsDigit(s[k])
  }

  /** Length of the run of digits at the start of `s`. */
  function DigitRun(s: string): (n: nat)
    ensures n <= |s|
    decreases |s|
  {
    if |s| > 0 && IsDigit(s[0]) then 1 + DigitRun(s[1..]) else 0
  }

  /** The digit run of digits followed by a non-digit is exactly those digits. */
  lemma {:induction false} DigitRunStopsAtUnit(a: string, c: char, r: string)
    requires AllDigits(a) && !IsDigit(c)
    ensures DigitRun(a + ([c] + r)) == |a|
    decreases |a|
  {
    var x := a + ([c] + r);
    if |a| == 0 {
      assert x[0] == c;
    } else {
      assert x[0] == a[0] && x[1..] == a[1..] + ([c] + r);
      DigitRunStopsAtUnit(a[1..], c, r);
    }
  }

  /** The digits before a unit letter are determined by the whole text. */
  lemma DigitsBeforeUnit(a: string, b: string, c: char, r1: string, r2: string)
    requires AllDigits(a) && AllDigits(b) && !IsDigit(c)
    requires a + ([c] + r1) == b + ([c] + r2)
    ensures a == b && r1 == r2
  {
    var x := a + ([c] + r1);
    DigitRunStopsAtUnit(a, c, r1);
    DigitRunStopsAtUnit(b, c, r2);
    assert a == x[..|a|] && r1 == x[|a| + 1..];
    var y := b + ([c] + r2);
    assert b == y[..|b|] && r2 == y[|b| + 1..];
  }

  /** Two renderings with digit-only parts are equal only part for part. */
  lemma RenderingsAgree(hs: string, ms: string, ss: string, h: string, m: string, s: string)
    requires AllDigits(hs) && AllDigits(ms) && AllDigits(ss)
    requires AllDigits(h) && AllDigits(m) && AllDigits(s)
    requires hs + ("h " + (ms + ("m " + (ss + "s")))) == h + ("h " + (m + ("m " + (s + "s"))))
    ensures hs == h && ms == m && ss == s
  {
    var tail1, tail2 := ss + "s", s + "s";
    var rest1, rest2 := ms + ("m " + tail1), m + ("m " + tail2);
    assert hs == h && rest1 == rest2 by {
      assert "h " + rest1 == ['h'] + ([' '] + rest1) && "h " + rest2 == ['h'] + ([' '] + rest2);
      DigitsBeforeUnit(hs, h, 'h', [' '] + rest1, [' '] + rest2);
      assert rest1 == ([' '] + rest1)[1..] && rest2 == ([' '] + rest2)[1..];
    }
    assert ms == m && tail1 == tail2 by {
      assert "m " + tail1 == ['m'] + ([' '] + tail1) && "m " + tail2 == ['m'] + ([' '] + tail2);
      DigitsBeforeUnit(ms, m, 'm', [' '] + tail1, [' '] + tail2);
      assert tail1 == ([' '] + tail1)[1..] && tail2 == ([' '] + tail2)[1..];
    }
    assert tail1 == ss + (['s'] + []) && tail2 == s + (['s'] + []);
    DigitsBeforeUnit(ss, s, 's', [], []);
  }

  /** The rendered cooldown reads back as the same duration: whatever digit
      strings stand before `h`, `m` and `s`, their values recombine to the
      seconds rendered, with minutes and seconds below sixty. */
  lemma FormatCooldownTimeReadsBack(seconds: nat, h: string, m: string, s: string)
    requires AllDigits(h) && AllDigits(m) && AllDigits(s)
    requires FormatCooldownTime(seconds) == h + ("h " + (m + ("m " + (s + "s"))))
    ensures DecimalValue(h) * 3600 + DecimalValue(m) * 60 + DecimalValue(s) == seconds
    ensures DecimalValue(m) < 60 && DecimalValue(s) < 60
  {
    var c := SplitCooldown(seconds);
    NatToStringRoundTrip(c.hours);
    NatToStringRoundTrip(c.minutes);
    NatToStringRoundTrip(c.seconds);
    RenderingsAgree(NatToString(c.hours), NatToString(c.minutes), NatToString(c.seconds), h, m, s);
  }

  /** The full cooldown reads one hour. */
  lemma FormatFullCooldown()
    ensures FormatCooldownTime(RATE_LIMIT_COOLDOWN) == "1h 0m 0s"
  {
    assert SplitCooldown(3600) == Clock(1, 0, 0);
  }

  /** The body the page posts: the three form fields as JSON strings. */
  function RequestBody(form: FormData): ContactRoute.Body {
    ContactRoute.Json(ContactRoute.Str(form.name), ContactRoute.Str(form.email), ContactRoute.Str(form.message))
  }

  /** A handler response as the page receives it. A rejected handler's 500
      carries no JSON, so `response.json()` throws and the page lands in its
      `catch` block. */
  function ReplyOf(r: ContactRoute.Response): (reply: Reply)
    ensures r.Unhandled? <==> reply.FetchFailed?
    ensures reply.Reply? ==> reply.status == r.Status()
    ensures IsOk(reply) <==> r.Success?
    ensures r.Success? ==> reply.message == r.message
    ensures r.BadRequest? || r.TooManyRequests? || r.InternalError? ==> reply.error == r.error
  {
    match r
    case Success(m) => Reply(200, m, "")
    case BadRequest(e) => Reply(400, "", e)
    case TooManyRequests(e) => Reply(429, "", e)
    case InternalError(e) => Reply(500, "", e)
    case Unhandled => FetchFailed
  }

  /** A form the client sends into a rate-limited key: the handler performs
      nothing and leaves the rate-limit map alone, and the page keeps the
      form, shows the server's text and disables the button for an hour. */
  lemma RateLimitedSubmitStartsCooldown(page: Page, store: Store, forwardedFor: Option<string>, now: int, succeeds: ContactRoute.Effect -> bool)
    requires ClientValid(page.form)
    requires Step(store, ClientKey(forwardedFor), now).decision == Rejected
    ensures var sent := BeginSubmit(page);
      var o := ContactRoute.Handle(store, forwardedFor, now, RequestBody(page.form), succeeds);
      var after := FinishSubmit(sent.page, ReplyOf(o.response));
      && sent.send
      && o.performed == [] && o.store == store
      && after.status == Failed && after.form == page.form
      && after.formMessage == ContactRoute.TOO_MANY
      && after.cooldown == RATE_LIMIT_COOLDOWN && SubmitDisabled(after)
  {
    var o := ContactRoute.Handle(store, forwardedFor, now, RequestBody(page.form), succeeds);
    assert o.response == ContactRoute.TooManyRequests(ContactRoute.TOO_MANY);
  }

  /** On text the sanitiser leaves alone, every form the client sends passes
      the handler's checks, and it succeeds when every effect goes through. */
  lemma ClientValidPlainFormIsAccepted(form: FormData, succeeds: ContactRoute.Effect -> bool)
    requires ClientValid(form)
    requires ContactRoute.Plain(form.name) && ContactRoute.Plain(form.email) && ContactRoute.Plain(form.message)
    ensures ContactRoute.Accepted(RequestBody(form))
    ensures (forall e | e in ContactRoute.Plan(form.name, form.email, form.message) :: succeeds(e)) ==>
      ContactRoute.Process(RequestBody(form), succeeds).response == ContactRoute.Success(ContactRoute.THANK_YOU)
  {
    SanitizeKeepsPlainText(form.name);
    SanitizeKeepsPlainText(form.email);
    SanitizeKeepsPlainText(form.message);
  }

  /** The handler has no rule on the name's length: a plain name the page
      refuses as too short or too long is accepted when posted directly. */
  lemma ServerIgnoresNameLength(form: FormData)
    requires ContactRoute.Plain(form.name) && ContactRoute.Plain(form.email) && ContactRoute.Plain(form.message)
    requires IsValidEmail(form.email) && IsValidMessage(form.message)
    requires |form.name| < MIN_NAME_LENGTH || |form.name| > MAX_NAME_LENGTH
    ensures ValidateField("name", form.name) != ""
    ensures ContactRoute.Accepted(RequestBody(form))
  {
    SanitizeKeepsPlainText(form.email);
    SanitizeKeepsPlainText(form.message);
  }

  /** The page measures the message before sanitising and the handler after:
      a leading `<` lets a nine-character message past the page, and the
      handler then refuses it for its length. */
  lemma BracketPaddedMessageRefused(name: string, email: string, x: string, succeeds: ContactRoute.Effect -> bool)
    requires name != "" && ContactRoute.Plain(email) && IsValidEmail(email)
    requires ContactRoute.Plain(x) && |x| == MIN_MESSAGE_LENGTH - 1
    ensures ValidateField("message", "<" + x) == ""
    ensures ContactRoute.Process(ContactRoute.Json(ContactRoute.Str(name), ContactRoute.Str(email), ContactRoute.Str("<" + x)), succeeds)
         == ContactRoute.Processed(ContactRoute.BadRequest(ContactRoute.BAD_MESSAGE), [])
  {
    SanitizeDropsLeadingBracket(x);
    assert IsValidMessage(SanitizeInput("<" + x)) == false;
    SanitizeKeepsPlainText(email);
  }

  lemma ExampleBracketPaddedMessage()
    ensures ValidateField("message", "<Hello sir") == ""
    ensures ContactRoute.Process(ContactRoute.Json(ContactRoute.Str("Jo"), ContactRoute.Str("jo@x.com"), ContactRoute.Str("<Hello sir")), _ => true)
         == ContactRoute.Processed(ContactRoute.BadRequest(ContactRoute.BAD_MESSAGE), [])
  {
    assert "<Hello sir" == "<" + "Hello sir";
    ContactRoute.PlainByIndex("jo@x.com");
    ContactRoute.PlainByIndex("Hello sir");
    EmailExamples();
    BracketPaddedMessageRefused("Jo", "jo@x.com", "Hello sir", _ => true);
  }
}

=== FILE: contact_route.dfy ===
/**
  The `POST /api/contact` handler as a pure function: the rate check, the
  presence check on the raw fields, sanitising, the email and message checks,
  then the effects: persist, notify the administrator, confirm to the sender,
  disconnect the database client. The database and the mail transport are an
  oracle `succeeds` that says whether each effect goes through; the first
  failure skips every later effect and lands in the `catch` block, which
  disconnects once more and answers 500.
 */
module ContactRoute {
  import opened Wrappers
  import opened Sanitize
  import opened Validation
  import opened ClientIdentity
  import opened RateLimit

  /** A field of the JSON body: absent, a string, or another JSON value
      (number, boolean, `null`, array, object), of which only its
      JavaScript truthiness matters. */
  datatype Field = Missing | Str(value: string) | NonString(truthy: bool)

  /** The request body. `Malformed` is a body on which `request.json()` or the
      destructuring of its result throws: not JSON at all, or JSON `null`. */
  datatype Body = Malformed | Json(name: Field, email: Field, message: Field)

  /** The stored contact record. */
  datatype Submission = Submission(name: string, email: string, message: string)

  /** The awaited calls into the database and the mail transport. The client
      is disconnected at two places: after the confirmation mail, and again in
      the `catch` block. */
  datatype Effect =
    | Persist(record: Submission)
    | NotifyAdmin(name: string, email: string, message: string)
    | ConfirmToSender(to: string, message: string)
    | Disconnect
    | DisconnectAfterError

  /** What the client receives. `Unhandled` is the answer when the handler
      itself rejects, because the disconnect in its `catch` block failed: the
      framework answers 500 with a body that is not the handler's JSON. */
  datatype Response =
    | Success(message: string)
    | BadRequest(error: string)
    | TooManyRequests(error: string)
    | InternalError(error: string)
    | Unhandled
  {
    function Status(): int {
      match this
      case Success(_) => 200
      case BadRequest(_) => 400
      case TooManyRequests(_) => 429
      case InternalError(_) => 500
      case Unhandled => 500
    }
  }

  const THANK_YOU: string := "Thank you for your message. We will get back to you soon!"
  const TOO_MANY: string := "Too many requests. Please try again later."
  const ALL_REQUIRED: string := "All fields are required"
  const BAD_EMAIL: string := "Invalid email format"
  const BAD_MESSAGE: string := "Message must be between 10 and 1000 characters"
  const FAILED: string := "Failed to process your request. Please try again later."

  /** A field passes `!field` when it is truthy: a non-empty string or a
      truthy non-string. */
  predicate Present(f: Field) {
    (f.Str? && f.value != "") || (f.NonString? && f.truthy)
  }

  predicate AllPresent(body: Body) {
    body.Json? && Present(body.name) && Present(body.email) && Present(body.message)
  }

  /** All three fields are strings, so sanitising them does not throw. */
  predicate AllStrings(body: Body) {
    body.Json? && body.name.Str? && body.email.Str? && body.message.Str?
  }

  /** The effects of an accepted submission, in the order they are awaited. */
  function Plan(name: string, email: string, message: string): seq<Effect> {
    [Persist(Submission(name, email, message)), NotifyAdmin(name, email, message), ConfirmToSender(email, message), Disconnect]
  }

  datatype Attempt = Attempt(performed: seq<Effect>, ok: bool)

  /** Runs `plan` in order until an effect fails; `performed` lists every
      effect attempted, the failing one last. */
  function Perform(plan: seq<Effect>, succeeds: Effect -> bool): (a: Attempt)
    ensures |a.performed| <= |plan| && a.performed == plan[..|a.performed|]
    ensures forall i | 0 <= i < |a.performed| - 1 :: succeeds(a.performed[i])
    ensures a.ok <==> a.performed == plan && forall e | e in plan :: succeeds(e)
    ensures !a.ok ==> |a.performed| > 0 && !succeeds(a.performed[|a.performed| - 1])
    decreases |plan|
  {
    if |plan| == 0 then Attempt([], true)
    else if !succeeds(plan[0]) then Attempt([plan[0]], false)
    else
      var rest := Perform(plan[1..], succeeds);
      assert plan == [plan[0]] + plan[1..];
      Attempt([plan[0]] + rest.performed, rest.ok)
  }

  /** The plan for the sanitised fields of a body of three strings. */
  function SanitizedPlan(body: Body): seq<Effect>
    requires AllStrings(body)
  {
    Plan(SanitizeInput(body.name.value), SanitizeInput(body.email.value), SanitizeInput(body.message.value))
  }

  /** A body that passes every check of the handler. */
  predicate Accepted(body: Body) {
    && AllPresent(body) && AllStrings(body)
    && IsValidEmail(SanitizeInput(body.email.value))
    && IsValidMessage(SanitizeInput(body.message.value))
  }

  /** How the checks before the effects end. */
  datatype Verdict = Refuse(error: string) | Throws | Accept

  /** The checks in the handler's order: parsing, presence of the raw fields,
      sanitising (which throws on a non-string), then the email and the
      message after sanitising. */
  function Check(body: Body): (v: Verdict)
    ensures v == Throws <==> body.Malformed? || (AllPresent(body) && !AllStrings(body))
    ensures v == Refuse(ALL_REQUIRED) <==> body.Json? && !AllPresent(body)
    ensures v == Refuse(BAD_EMAIL) <==>
      AllPresent(body) && AllStrings(body) && !IsValidEmail(SanitizeInput(body.email.value))
    ensures v == Refuse(BAD_MESSAGE) <==>
      && AllPresent(body) && AllStrings(body)
      && IsValidEmail(SanitizeInput(body.email.value))
      && !IsValidMessage(SanitizeInput(body.message.value))
    ensures v == Accept <==> Accepted(body)
  {
    if body.Malformed? then Throws
    else if !AllPresent(body) then Refuse(ALL_REQUIRED)
    else if !AllStrings(body) then Throws
    else if !IsValidEmail(SanitizeInput(body.email.value)) then Refuse(BAD_EMAIL)
    else if !IsValidMessage(SanitizeInput(body.message.value)) then Refuse(BAD_MESSAGE)
    else Accept
  }

  datatype Processed = Processed(response: Response, performed: seq<Effect>)

  /** The `catch` block after `tried`: disconnect once more and answer 500;
      if that disconnect fails, the handler rejects. */
  function Fail(tried: seq<Effect>, succeeds: Effect -> bool): Processed {
    Processed(if succeeds(DisconnectAfterError) then InternalError(FAILED) else Unhandled, tried + [DisconnectAfterError])
  }

  /** Everything after the rate check. A 400 performs nothing; the planned
      effects happen only for an accepted body, in order and carrying the
      sanitised fields; the answer is 200 exactly when all four went through.
      Every other outcome is a 500 from the `catch` block, which disconnects
      last: after the failing effect, or alone when the body could not be
      read or sanitised. */
  function Process(body: Body, succeeds: Effect -> bool): (p: Processed)
    ensures p.response == Success(THANK_YOU) || p.response.BadRequest?
         || p.response == InternalError(FAILED) || p.response == Unhandled
    ensures p.response.BadRequest? <==> Check(body).Refuse?
    ensures p.response.BadRequest? ==> p.performed == [] && p.response.error == Check(body).error
    ensures p.response.Success? <==>
      Accepted(body) && p.performed == SanitizedPlan(body) && forall e | e in p.performed :: succeeds(e)
    ensures p.response.Status() == 500 ==>
      && |p.performed| > 0 && p.performed[|p.performed| - 1] == DisconnectAfterError
      && (p.response.InternalError? <==> succeeds(DisconnectAfterError))
    ensures Check(body) == Throws ==> p.performed == [DisconnectAfterError]
    ensures Accepted(body) ==> |p.performed| > 0
    ensures Accepted(body) && !p.response.Success? ==>
      var tried := p.performed[..|p.performed| - 1];
      && 0 < |tried| <= |SanitizedPlan(body)| && tried == SanitizedPlan(body)[..|tried|]
      && !succeeds(tried[|tried| - 1])
      && (forall i | 0 <= i < |tried| - 1 :: succeeds(tried[i]))
  {
    match Check(body)
    case Throws => Fail([], succeeds)
    case Refuse(error) => Processed(BadRequest(error), [])
    case Accept =>
      var attempt := Perform(SanitizedPlan(body), succeeds);
      if attempt.ok then Processed(Success(THANK_YOU), attempt.performed)
      else
        var p := Fail(attempt.performed, succeeds);
        assert p.performed[..|p.performed| - 1] == attempt.performed;
        p
  }

  /** What the handler answers, what it did, and the rate-limit map afterwards. */
  datatype Outcome = Outcome(response: Response, performed: seq<Effect>, store: Store)

  /** `POST`: `forwardedFor` is the `x-forwarded-for` header, `now` the clock.
      The rate check comes first: a rejected request changes nothing and
      performs nothing, and every other request has consumed its rate slot
      whatever happens afterwards and is then processed. */
  function Handle(store: Store, forwardedFor: Option<string>, now: int, body: Body, succeeds: Effect -> bool): (o: Outcome)
    ensures var step := Step(store, ClientKey(forwardedFor), now);
      && (o.response.Status() == 429 <==> step.decision == Rejected)
      && (o.response.Status() == 429 ==> o.response == TooManyRequests(TOO_MANY) && o.performed == [] && o.store == store)
      && (o.response.Status() != 429 ==> o.store == step.store)
      && (o.response.Status() != 429 ==>
            o.response == Process(body, succeeds).response && o.performed == Process(body, succeeds).performed)
  {
    var step := Step(store, ClientKey(forwardedFor), now);
    if step.decision == Rejected then Outcome(TooManyRequests(TOO_MANY), [], store)
    else
      var p := Process(body, succeeds);
      Outcome(p.response, p.performed, step.store)
  }

  /** Presence is checked on the raw fields and no later check looks at the
      name: a whitespace-only name is accepted and stored as the empty string. */
  lemma BlankNameIsStoredEmpty(name: string, email: string, message: string, succeeds: Effect -> bool)
    requires |name| > 0 && Text.AllSpace(name)
    requires email != "" && IsValidEmail(SanitizeInput(email))
    requires message != "" && IsValidMessage(SanitizeInput(message))
    ensures var p := Process(Json(Str(name), Str(email), Str(message)), succeeds);
      p.performed[0] == Persist(Submission("", SanitizeInput(email), SanitizeInput(message)))
  {
    SanitizeBlank(name);
    var body := Json(Str(name), Str(email), Str(message));
    assert Accepted(body);
    var plan := SanitizedPlan(body);
    assert plan[0] == Persist(Submission("", SanitizeInput(email), SanitizeInput(message)));
    var p := Process(body, succeeds);
    if p.response.Success? {
      assert p.performed == plan;
    } else {
      var tried := p.performed[..|p.performed| - 1];
      assert tried == plan[..|tried|] && |tried| > 0;
      assert p.performed[0] == tried[0] == plan[0];
    }
  }

  /** A falsy non-string field, such as `0`, `false` or `null`, fails the
      presence check: 400, and nothing is performed. */
  lemma FalsyFieldRefused(email: Field, message: Field, succeeds: Effect -> bool)
    ensures Process(Json(NonString(false), email, message), succeeds) == Processed(BadRequest(ALL_REQUIRED), [])
  {
  }

  /** A truthy non-string field passes the presence check and makes the
      sanitiser throw: the `catch` block disconnects and answers 500. */
  lemma TruthyNonStringThrows(email: string, message: string, succeeds: Effect -> bool)
    requires email != "" && message != ""
    ensures var p := Process(Json(NonString(true), Str(email), Str(message)), succeeds);
      && p.performed == [DisconnectAfterError]
      && p.response == if succeeds(DisconnectAfterError) then InternalError(FAILED) else Unhandled
  {
  }

  /** The final disconnect is awaited before the answer: when it fails, the
      record is stored and both mails are sent, yet the client gets a 500,
      or no JSON answer at all when the second disconnect fails too. */
  lemma LateDisconnectFailure(name: string, email: string, message: string, succeeds: Effect -> bool)
    requires Plain(name) && Plain(email) && Plain(message)
    requires IsValidEmail(email) && IsValidMessage(message)
    requires succeeds(Persist(Submission(name, email, message)))
    requires succeeds(NotifyAdmin(name, email, message)) && succeeds(ConfirmToSender(email, message))
    requires !succeeds(Disconnect)
    ensures Process(Json(Str(name), Str(email), Str(message)), succeeds)
         == Processed(if succeeds(DisconnectAfterError) then InternalError(FAILED) else Unhandled,
                      Plan(name, email, message) + [DisconnectAfterError])
  {
    SanitizeKeepsPlainText(name);
    SanitizeKeepsPlainText(email);
    SanitizeKeepsPlainText(message);
    var body := Json(Str(name), Str(email), Str(message));
    var plan := Plan(name, email, message);
    assert Check(body) == Accept && SanitizedPlan(body) == plan;
    PerformStopsAtLast(plan, succeeds);
  }

  /** When only the last effect of a plan fails, every effect is attempted. */
  lemma {:induction false} PerformStopsAtLast(plan: seq<Effect>, succeeds: Effect -> bool)
    requires |plan| > 0 && !succeeds(plan[|plan| - 1])
    requires forall i | 0 <= i < |plan| - 1 :: succeeds(plan[i])
    ensures Perform(plan, succeeds) == Attempt(plan, false)
    decreases |plan|
  {
    if |plan| > 1 {
      PerformStopsAtLast(plan[1..], succeeds);
      assert plan == [plan[0]] + plan[1..];
    }
  }

  /** Text the sanitiser leaves alone. */
  predicate Plain(s: string) {
    s != "" && Text.NoEdgeSpace(s) && '<' !in s && '>' !in s && ':' !in s && '=' !in s
  }

  /** `Plain` checked character by character. */
  lemma PlainByIndex(s: string)
    requires s != "" && Text.NoEdgeSpace(s)
    requires forall i | 0 <= i < |s| :: s[i] != '<' && s[i] != '>' && s[i] != ':' && s[i] != '='
    ensures Plain(s)
  {
  }

  /** The happy path: plain, valid fields are stored and mailed verbatim when
      every effect goes through. */
  lemma PlainSubmissionSucceeds(name: string, email: string, message: string, succeeds: Effect -> bool)
    requires Plain(name) && Plain(email) && Plain(message)
    requires IsValidEmail(email) && IsValidMessage(message)
    requires forall e | e in Plan(name, email, message) :: succeeds(e)
    ensures Process(Json(Str(name), Str(email), Str(message)), succeeds) == Processed(Success(THANK_YOU), Plan(name, email, message))
  {
    SanitizeKeepsPlainText(name);
    SanitizeKeepsPlainText(email);
    SanitizeKeepsPlainText(message);
  }

  lemma ExampleSubmission()
    ensures Process(Json(Str("Jo"), Str("jo@x.com"), Str("Hello there, testing.")), _ => true)
         == Processed(Success(THANK_YOU), Plan("Jo", "jo@x.com", "Hello there, testing."))
  {
    PlainByIndex("Jo");
    PlainByIndex("jo@x.com");
    PlainByIndex("Hello there, testing.");
    EmailExamples();
    PlainSubmissionSucceeds("Jo", "jo@x.com", "Hello there, testing.", _ => true);
  }

  /** A valid address with a plain message shorter than ten characters is
      refused with the message-length error and nothing happens. */
  lemma ShortMessageRefused(name: string, email: string, message: string, succeeds: Effect -> bool)
    requires name != "" && Plain(email) && Plain(message)
    requires IsValidEmail(email) && |message| < MIN_MESSAGE_LENGTH
    ensures Process(Json(Str(name), Str(email), Str(message)), succeeds) == Processed(BadRequest(BAD_MESSAGE), [])
  {
    SanitizeKeepsPlainText(email);
    SanitizeKeepsPlainText(message);
  }

  lemma ExampleShortMessage()
    ensures Process(Json(Str("Jo"), Str("jo@x.com"), Str("Hello")), _ => true) == Processed(BadRequest(BAD_MESSAGE), [])
  {
    PlainByIndex("jo@x.com");
    PlainByIndex("Hello");
    EmailExamples();
    ShortMessageRefused("Jo", "jo@x.com", "Hello", _ => true);
  }

  /** A plain address the pattern rejects is refused with the email error. */
  lemma BadEmailRefused(name: string, email: string, message: string, succeeds: Effect -> bool)
    requires name != "" && message != "" && Plain(email) && !IsValidEmail(email)
    ensures Process(Json(Str(name), Str(email), Str(message)), succeeds) == Processed(BadRequest(BAD_EMAIL), [])
  {
    SanitizeKeepsPlainText(email);
  }

  lemma ExampleBadEmail()
    ensures Process(Json(Str("Jo"), Str("not-an-email"), Str("Hello there, testing.")), _ => true) == Processed(BadRequest(BAD_EMAIL), [])
  {
    PlainByIndex("not-an-email");
    EmailExamples();
    BadEmailRefused("Jo", "not-an-email", "Hello there, testing.", _ => true);
  }
}

=== FILE: rate_limit.dfy ===
/**
  The in-memory fixed-window rate limiter of the contact endpoint: a map from
  client key to a request count and the time its window started. A step
  looks at one request from one key at time `now` (milliseconds).
 */
module RateLimit {

  /** One hour in milliseconds. */
  const RATE_LIMIT_WINDOW: int := 3600000
  const MAX_REQUESTS: int := 5

  datatype Entry = Entry(count: int, timestamp: int)

  type Store = map<string, Entry>

  datatype Decision = Allowed | Rejected

  datatype StepResult = StepResult(decision: Decision, store: Store)

  /** The entry for `key`; a key never seen reads as an empty window that starts now. */
  function Lookup(store: Store, key: string, now: int): Entry {
    if key in store then store[key] else Entry(0, now)
  }

  /** One request from `key` at time `now`. */
  function Step(store: Store, key: string, now: int): (r: StepResult)
    ensures r.decision == Rejected ==>
      && r.store == store
      && key in store
      && store[key].count >= MAX_REQUESTS
      && now - store[key].timestamp <= RATE_LIMIT_WINDOW
    ensures r.decision == Allowed ==>
      && r.store.Keys == store.Keys + {key}
      && (forall k | k in store && k != key :: r.store[k] == store[k])
    ensures key in store && now - store[key].timestamp > RATE_LIMIT_WINDOW ==>
      r.decision == Allowed && r.store[key] == Entry(1, now)
    ensures key !in store ==> r.decision == Allowed && r.store[key] == Entry(1, now)
    ensures key in store && now - store[key].timestamp <= RATE_LIMIT_WINDOW && store[key].count >= MAX_REQUESTS ==>
      r.decision == Rejected
    ensures key in store && now - store[key].timestamp <= RATE_LIMIT_WINDOW && store[key].count < MAX_REQUESTS ==>
      r.decision == Allowed && r.store[key] == Entry(store[key].count + 1, store[key].timestamp)
  {
    var entry := Lookup(store, key, now);
    if now - entry.timestamp > RATE_LIMIT_WINDOW then
      StepResult(Allowed, store[key := Entry(1, now)])
    else if entry.count >= MAX_REQUESTS then
      StepResult(Rejected, store)
    else
      StepResult(Allowed, store[key := Entry(entry.count + 1, entry.timestamp)])
  }

  /** Every stored count lies in 1..MAX_REQUESTS. */
  predicate CountsInRange(store: Store) {
    forall k | k in store :: 1 <= store[k].count <= MAX_REQUESTS
  }

  /** A step keeps the counts in range. */
  lemma StepKeepsCountsInRange(store: Store, key: string, now: int)
    requires CountsInRange(store)
    ensures CountsInRange(Step(store, key, now).store)
  {
  }

  /** Requests from any keys, each a key and an arrival time. */
  type Request = (string, int)

  /** The map after serving `requests` in order. */
  function Replay(store: Store, requests: seq<Request>): Store
    decreases |requests|
  {
    if |requests| == 0 then store
    else Replay(Step(store, requests[0].0, requests[0].1).store, requests[1..])
  }

  /** From the empty map, whatever requests arrive, every stored count stays
      in 1..MAX_REQUESTS. */
  lemma {:induction false} ReplayKeepsCountsInRange(store: Store, requests: seq<Request>)
    requires CountsInRange(store)
    ensures CountsInRange(Replay(store, requests))
    decreases |requests|
  {
    if |requests| > 0 {
      StepKeepsCountsInRange(store, requests[0].0, requests[0].1);
      ReplayKeepsCountsInRange(Step(store, requests[0].0, requests[0].1).store, requests[1..]);
    }
  }

  datatype RunResult = RunResult(decisions: seq<Decision>, store: Store)

  /** A sequence of requests from one key at the given times. */
  function Run(store: Store, key: string, times: seq<int>): (r: RunResult)
    ensures |r.decisions| == |times|
    decreases |times|
  {
    if |times| == 0 then RunResult([], store)
    else
      var first := Step(store, key, times[0]);
      var rest := Run(first.store, key, times[1..]);
      RunResult([first.decision] + rest.decisions, rest.store)
  }

  /** Inside one window, a key with `count` requests on record gets the
      remaining `MAX_REQUESTS - count` requests and then only rejections; the
      window start never moves. */
  lemma {:induction false} WithinWindow(store: Store, key: string, times: seq<int>)
    requires key in store && 0 <= store[key].count <= MAX_REQUESTS
    requires forall i | 0 <= i < |times| :: times[i] - store[key].timestamp <= RATE_LIMIT_WINDOW
    ensures forall i | 0 <= i < |times| ::
      Run(store, key, times).decisions[i] == if i < MAX_REQUESTS - store[key].count then Allowed else Rejected
    ensures key in Run(store, key, times).store
    ensures Run(store, key, times).store[key] ==
      Entry(if store[key].count + |times| < MAX_REQUESTS then store[key].count + |times| else MAX_REQUESTS,
            store[key].timestamp)
    decreases |times|
  {
    if |times| > 0 {
      var first := Step(store, key, times[0]);
      assert first.store[key].timestamp == store[key].timestamp;
      WithinWindow(first.store, key, times[1..]);
      var rest := Run(first.store, key, times[1..]);
      forall i | 0 <= i < |times|
        ensures Run(store, key, times).decisions[i] == if i < MAX_REQUESTS - store[key].count then Allowed else Rejected
      {
        if i > 0 {
          assert Run(store, key, times).decisions[i] == rest.decisions[i - 1];
        }
      }
    }
  }

  /** The window is fixed: for a key never seen, the first MAX_REQUESTS
      requests within RATE_LIMIT_WINDOW of the first one are allowed and every
      later one in that window is rejected. */
  lemma FreshKeyWindow(store: Store, key: string, times: seq<int>)
    requires key !in store && |times| > 0
    requires forall i | 0 <= i < |times| :: times[i] - times[0] <= RATE_LIMIT_WINDOW
    ensures forall i | 0 <= i < |times| ::
      Run(store, key, times).decisions[i] == if i < MAX_REQUESTS then Allowed else Rejected
  {
    var first := Step(store, key, times[0]);
    WithinWindow(first.store, key, times[1..]);
    var rest := Run(first.store, key, times[1..]);
    forall i | 0 <= i < |times|
      ensures Run(store, key, times).decisions[i] == if i < MAX_REQUESTS then Allowed else Rejected
    {
      if i > 0 {
        assert Run(store, key, times).decisions[i] == rest.decisions[i - 1];
      }
    }
  }

  /** Running two batches ends where running their concatenation ends. */
  lemma {:induction false} RunAppendStore(store: Store, key: string, a: seq<int>, b: seq<int>)
    ensures Run(store, key, a + b).store == Run(Run(store, key, a).store, key, b).store
    decreases |a|
  {
    if |a| == 0 {
      assert a + b == b;
    } else {
      assert (a + b)[0] == a[0] && (a + b)[1..] == a[1..] + b;
      RunAppendStore(Step(store, key, a[0]).store, key, a[1..], b);
    }
  }

  /** Running two batches decides as running their concatenation does. */
  lemma {:induction false} RunAppend(store: Store, key: string, a: seq<int>, b: seq<int>)
    ensures Run(store, key, a + b).decisions == Run(store, key, a).decisions + Run(Run(store, key, a).store, key, b).decisions
    decreases |a|
  {
    if |a| == 0 {
      assert a + b == b;
    } else {
      var first := Step(store, key, a[0]);
      assert (a + b)[0] == a[0] && (a + b)[1..] == a[1..] + b;
      RunAppend(first.store, key, a[1..], b);
      var tail := Run(first.store, key, a[1..]);
      calc {
        Run(store, key, a + b).decisions;
        [first.decision] + Run(first.store, key, a[1..] + b).decisions;
        [first.decision] + (tail.decisions + Run(tail.store, key, b).decisions);
        ([first.decision] + tail.decisions) + Run(tail.store, key, b).decisions;
      }
    }
  }

  /** Five requests at the start and at the very end of a fresh key's
      window are all allowed and use up the window. */
  lemma FirstWindowFilled(store: Store, key: string)
    requires key !in store
    ensures var r := Run(store, key, [0] + seq(4, _ => RATE_LIMIT_WINDOW));
      && r.decisions == seq(5, _ => Allowed)
      && key in r.store && r.store[key] == Entry(MAX_REQUESTS, 0)
  {
    var a := [0] + seq(4, _ => RATE_LIMIT_WINDOW);
    FreshKeyWindow(store, key, a);
    WithinWindow(Step(store, key, 0).store, key, a[1..]);
  }

  /** Because the window is fixed and not sliding, ten requests are allowed
      although nine of them arrive within one millisecond: one at the start
      of a fresh window, four at its last instant, and five one millisecond
      later, when a new window begins. */
  lemma BurstAcrossWindowEdge(store: Store, key: string)
    requires key !in store
    ensures Run(store, key, [0] + seq(4, _ => RATE_LIMIT_WINDOW) + seq(5, _ => RATE_LIMIT_WINDOW + 1)).decisions
         == seq(10, _ => Allowed)
  {
    var a := [0] + seq(4, _ => RATE_LIMIT_WINDOW);
    var b := seq(5, _ => RATE_LIMIT_WINDOW + 1);
    FirstWindowFilled(store, key);
    var mid := Run(store, key, a);
    FreshAfterExpiry(mid.store, key, b);
    RunAppend(store, key, a, b);
  }

  /** Once a key's window has expired, the next MAX_REQUESTS requests inside
      the new window are allowed. */
  lemma FreshAfterExpiry(store: Store, key: string, times: seq<int>)
    requires key in store && |times| > 0
    requires times[0] - store[key].timestamp > RATE_LIMIT_WINDOW
    requires forall i | 0 <= i < |times| :: times[i] - times[0] <= RATE_LIMIT_WINDOW
    ensures forall i | 0 <= i < |times| ::
      Run(store, key, times).decisions[i] == if i < MAX_REQUESTS then Allowed else Rejected
  {
    var first := Step(store, key, times[0]);
    WithinWindow(first.store, key, times[1..]);
    var rest := Run(first.store, key, times[1..]);
    forall i | 0 <= i < |times|
      ensures Run(store, key, times).decisions[i] == if i < MAX_REQUESTS then Allowed else Rejected
    {
      if i > 0 {
        assert Run(store, key, times).decisions[i] == rest.decisions[i - 1];
      }
    }
  }
}

=== FILE: sanitize.dfy ===
/**
  `sanitizeInput` of the contact endpoint: trim, then delete every `<` and `>`,
  then every case-insensitive `javascript:`, then every case-insensitive
  `on\w+=`. Each deletion is a global `replace` with the empty string, which
  scans left to right and deletes non-overlapping matches.
 */
module Sanitize {
  import opened Text

  /** The patterns of the three `replace` calls, in the order they run. */
  datatype Pattern = AngleBracket | JavascriptScheme | EventHandler

  const JAVASCRIPT_SCHEME: string := "javascript:"

  /** `w` is a word of the language of `p`: `[<>]`, `javascript:` ignoring
      case, or `on\w+=` ignoring case. */
  predicate InLanguage(p: Pattern, w: string) {
    match p
    case AngleBracket => w == "<" || w == ">"
    case JavascriptScheme =>
      && |w| == |JAVASCRIPT_SCHEME|
      && forall k | 0 <= k < |w| :: FoldCase(w[k]) == FoldCase(JAVASCRIPT_SCHEME[k])
    case EventHandler =>
      && |w| >= 4
      && FoldCase(w[0]) == 'O' && FoldCase(w[1]) == 'N'
      && (forall k | 2 <= k < |w| - 1 :: IsWordChar(w[k]))
      && w[|w| - 1] == '='
  }

  /** No substring of `s` is a match of `p`. */
  predicate NoMatch(p: Pattern, s: string) {
    forall i, j | 0 <= i <= j <= |s| :: !InLanguage(p, s[i..j])
  }

  /** Length of the maximal run of `\w` characters at the start of `t`. */
  function WordRun(t: string): (k: nat)
    ensures k <= |t|
    ensures forall i | 0 <= i < k :: IsWordChar(t[i])
    ensures k < |t| ==> !IsWordChar(t[k])
  {
    if |t| > 0 && IsWordChar(t[0]) then 1 + WordRun(t[1..]) else 0
  }

  /** Length of the match of `p` that starts at the first character of `s`,
      or 0 when the regular expression does not match there. */
  function MatchLength(p: Pattern, s: string): (n: nat)
    ensures n <= |s|
    ensures n > 0 ==> InLanguage(p, s[..n])
  {
    match p
    case AngleBracket =>
      if |s| > 0 && (s[0] == '<' || s[0] == '>') then 1 else 0
    case JavascriptScheme =>
      if |s| >= |JAVASCRIPT_SCHEME|
         && forall k | 0 <= k < |JAVASCRIPT_SCHEME| :: FoldCase(s[k]) == FoldCase(JAVASCRIPT_SCHEME[k])
      then |JAVASCRIPT_SCHEME| else 0
    case EventHandler =>
      if |s| >= 2 && FoldCase(s[0]) == 'O' && FoldCase(s[1]) == 'N' then
        var k := WordRun(s[2..]);
        if k > 0 && 2 + k < |s| && s[2 + k] == '=' then
          assert forall i | 0 <= i < k :: s[..k + 3][i + 2] == s[2..][i];
          k + 3
        else 0
      else 0
  }

  /** The three languages are prefix-free: a match at the start of `s` is the
      one `MatchLength` reports. */
  lemma MatchIsUnique(p: Pattern, s: string, m: nat)
    requires 0 < m <= |s| && InLanguage(p, s[..m])
    ensures MatchLength(p, s) == m
  {
    match p
    case AngleBracket =>
    case JavascriptScheme =>
      assert forall k | 0 <= k < |JAVASCRIPT_SCHEME| :: s[..m][k] == s[k];
    case EventHandler =>
      assert s[..m][0] == s[0] && s[..m][1] == s[1];
      var k := WordRun(s[2..]);
      assert forall i | 0 <= i < m - 3 :: s[2..][i] == s[..m][i + 2];
      assert s[2..][m - 3] == s[..m][m - 1];
  }

  /** `s.replace(regex, '')` with the global flag: a left-to-right scan that
      deletes each match and resumes after it. */
  function Strip(p: Pattern, s: string): string
    decreases |s|
  {
    if |s| == 0 then []
    else
      var n := MatchLength(p, s);
      if n > 0 then Strip(p, s[n..]) else [s[0]] + Strip(p, s[1..])
  }

  /** `sanitizeInput`. */
  function SanitizeInput(s: string): string {
    Strip(EventHandler, Strip(JavascriptScheme, Strip(AngleBracket, Trim(s))))
  }

  /** Every global `replace` with the empty string only deletes characters. */
  lemma {:induction false} StripDeletesOnly(p: Pattern, s: string)
    ensures IsSubseq(Strip(p, s), s)
    decreases |s|
  {
    if |s| > 0 {
      var n := MatchLength(p, s);
      if n > 0 {
        StripDeletesOnly(p, s[n..]);
        SubseqOfSuffix(Strip(p, s), s, n);
      } else {
        StripDeletesOnly(p, s[1..]);
        SubseqCons(s[0], Strip(p, s[1..]), s[1..]);
        assert s == [s[0]] + s[1..];
      }
    }
  }

  /** A `replace` whose pattern matches nowhere returns its input. */
  lemma {:induction false} StripWithoutMatch(p: Pattern, s: string)
    requires NoMatch(p, s)
    ensures Strip(p, s) == s
    decreases |s|
  {
    if |s| > 0 {
      var n := MatchLength(p, s);
      assert n == 0 by {
        assert !InLanguage(p, s[0..n]);
        assert s[0..n] == s[..n];
      }
      assert NoMatch(p, s[1..]) by {
        forall i, j | 0 <= i <= j <= |s| - 1
          ensures !InLanguage(p, s[1..][i..j])
        {
          assert s[1..][i..j] == s[i + 1..j + 1];
        }
      }
      StripWithoutMatch(p, s[1..]);
      assert s == [s[0]] + s[1..];
    }
  }

  /** Deleting `[<>]` leaves no angle bracket and keeps every other character
      of the input, each as often as it occurred, in order. */
  lemma {:induction false} StripAngleBrackets(s: string)
    ensures '<' !in Strip(AngleBracket, s) && '>' !in Strip(AngleBracket, s)
    ensures forall c | c != '<' && c != '>' :: multiset(Strip(AngleBracket, s))[c] == multiset(s)[c]
    ensures IsSubseq(Strip(AngleBracket, s), s)
    decreases |s|
  {
    StripDeletesOnly(AngleBracket, s);
    if |s| > 0 {
      StripAngleBrackets(s[1..]);
      assert s == [s[0]] + s[1..];
      assert multiset(s) == multiset{s[0]} + multiset(s[1..]);
      if MatchLength(AngleBracket, s) == 0 {
        assert Strip(AngleBracket, s) == [s[0]] + Strip(AngleBracket, s[1..]);
        assert multiset(Strip(AngleBracket, s)) == multiset{s[0]} + multiset(Strip(AngleBracket, s[1..]));
      }
    }
  }

  /** Nothing of the output can be an angle bracket: the first deletion removes
      them all and the later ones only delete. */
  lemma SanitizeRemovesAngleBrackets(s: string)
    ensures '<' !in SanitizeInput(s) && '>' !in SanitizeInput(s)
  {
    var a := Strip(AngleBracket, Trim(s));
    var b := Strip(JavascriptScheme, a);
    StripAngleBrackets(Trim(s));
    StripDeletesOnly(JavascriptScheme, a);
    StripDeletesOnly(EventHandler, b);
    SubseqTrans(SanitizeInput(s), b, a);
    SubseqExcludes(SanitizeInput(s), a, '<');
    SubseqExcludes(SanitizeInput(s), a, '>');
  }

  /** The sanitiser only deletes characters, so it never lengthens its input. */
  lemma SanitizeDeletesOnly(s: string)
    ensures IsSubseq(SanitizeInput(s), s)
    ensures |SanitizeInput(s)| <= |s|
  {
    var a := Strip(AngleBracket, Trim(s));
    var b := Strip(JavascriptScheme, a);
    TrimDeletesOnly(s);
    StripDeletesOnly(AngleBracket, Trim(s));
    StripDeletesOnly(JavascriptScheme, a);
    StripDeletesOnly(EventHandler, b);
    SubseqTrans(a, Trim(s), s);
    SubseqTrans(b, a, s);
    SubseqTrans(SanitizeInput(s), b, s);
    SubseqLength(SanitizeInput(s), s);
  }

  /** Text with no edge whitespace, no angle bracket and no match of the two
      case-insensitive patterns passes through the sanitiser unchanged. */
  predicate IsClean(s: string) {
    && NoEdgeSpace(s)
    && '<' !in s && '>' !in s
    && NoMatch(JavascriptScheme, s)
    && NoMatch(EventHandler, s)
  }

  lemma SanitizeKeepsCleanInput(s: string)
    requires IsClean(s)
    ensures SanitizeInput(s) == s
  {
    TrimDeletesOnly(s);
    NoBracketNoMatch(s);
    StripWithoutMatch(AngleBracket, s);
    StripWithoutMatch(JavascriptScheme, s);
    StripWithoutMatch(EventHandler, s);
  }

  /** The sanitiser is not idempotent: trimming runs before the deletions, so
      whitespace uncovered by deleting a bracket survives the first pass. */
  lemma {:induction false} SanitizeIsNotIdempotent()
    ensures SanitizeInput("< x") == " x"
    ensures SanitizeInput(SanitizeInput("< x")) == "x"
  {
    assert Inert("x");
    SanitizeBracketBeforeSpace("x");
    SanitizeLeadingSpace("x");
    assert "<" + " " + "x" == "< x" && " " + "x" == " x";
  }

  lemma StripLeadingBracket(t: string)
    requires '<' !in t && '>' !in t
    ensures Strip(AngleBracket, "<" + t) == t
  {
    StripAngleBracketsAppend("<", t);
    assert Strip(AngleBracket, "<") == [];
    BracketFreeKept(t);
  }

  /** A bracket before a space: the space survives the first pass. */
  lemma SanitizeBracketBeforeSpace(x: string)
    requires Inert(x) && NoEdgeSpace(x) && |x| > 0
    ensures SanitizeInput("<" + " " + x) == " " + x
  {
    var s := "<" + " " + x;
    var t := " " + x;
    assert s == "<" + t;
    assert NoEdgeSpace(s) by {
      assert s[0] == '<' && s[|s| - 1] == x[|x| - 1];
    }
    assert Inert(t);
    calc {
      SanitizeInput(s);
      Strip(EventHandler, Strip(JavascriptScheme, Strip(AngleBracket, Trim(s))));
      { TrimDeletesOnly(s); }
      Strip(EventHandler, Strip(JavascriptScheme, Strip(AngleBracket, s)));
      { StripLeadingBracket(t); }
      Strip(EventHandler, Strip(JavascriptScheme, t));
      { SchemePassKeeps(t); }
      Strip(EventHandler, t);
      { HandlerPassKeeps(t); }
      t;
    }
  }

  /** A leading space goes on the second pass. */
  lemma SanitizeLeadingSpace(x: string)
    requires Inert(x) && NoEdgeSpace(x) && |x| > 0
    ensures SanitizeInput(" " + x) == x
  {
    assert Trim(" " + x) == x by {
      assert (" " + x)[1..] == x;
      assert LeadingSpaceCount(" " + x) == 1;
      TrimDeletesOnly(x);
    }
    FirstStepsKeep(x);
    SchemePassKeeps(x);
    HandlerPassKeeps(x);
  }

  /** A position where the pattern does not match keeps its character. */
  lemma StripKeepsUnmatched(p: Pattern, c: char, t: string)
    requires MatchLength(p, [c] + t) == 0
    ensures Strip(p, [c] + t) == [c] + Strip(p, t)
  {
    assert ([c] + t)[1..] == t;
  }

  lemma NoBracketNoMatch(s: string)
    requires '<' !in s && '>' !in s
    ensures NoMatch(AngleBracket, s)
  {
    forall i, j | 0 <= i <= j <= |s|
      ensures !InLanguage(AngleBracket, s[i..j])
    {
      if j == i + 1 {
        assert s[i..j][0] == s[i];
      }
    }
  }

  /** Every match of `javascript:` starts with a `j` or a `J`. */
  lemma NoLetterJNoScheme(s: string)
    requires 'j' !in s && 'J' !in s
    ensures NoMatch(JavascriptScheme, s)
  {
    forall i, j | 0 <= i <= j <= |s|
      ensures !InLanguage(JavascriptScheme, s[i..j])
    {
      if j > i {
        assert s[i..j][0] == s[i];
      }
    }
  }

  /** Every match of `on\w+=` starts with an `o` or an `O`. */
  lemma NoLetterONoHandler(s: string)
    requires 'o' !in s && 'O' !in s
    ensures NoMatch(EventHandler, s)
  {
    forall i, j | 0 <= i <= j <= |s|
      ensures !InLanguage(EventHandler, s[i..j])
    {
      if j > i {
        assert s[i..j][0] == s[i];
      }
    }
  }

  /** A full match of `javascript:` at the front is deleted as a whole. */
  lemma StripLeadingScheme(t: string)
    ensures Strip(JavascriptScheme, JAVASCRIPT_SCHEME + t) == Strip(JavascriptScheme, t)
  {
    var s := JAVASCRIPT_SCHEME + t;
    assert s[..11] == JAVASCRIPT_SCHEME;
    assert InLanguage(JavascriptScheme, s[..11]);
    assert s[11..] == t;
  }

  /** `javascript:` does not match where a character differs from it. */
  lemma NoSchemeAt(s: string, k: nat)
    requires k < |JAVASCRIPT_SCHEME| && k < |s| && FoldCase(s[k]) != FoldCase(JAVASCRIPT_SCHEME[k])
    ensures MatchLength(JavascriptScheme, s) == 0
  {
  }

  /** No match of `p` starts inside `w` when `w` is followed by `t`. */
  predicate UnmatchedBefore(p: Pattern, w: string, t: string)
    decreases |w|
  {
    |w| == 0 || (MatchLength(p, w + t) == 0 && UnmatchedBefore(p, w[1..], t))
  }

  /** A prefix at none of whose positions the pattern matches is kept whole. */
  lemma {:induction false} StripKeepsUnmatchedPrefix(p: Pattern, w: string, t: string)
    requires UnmatchedBefore(p, w, t)
    ensures Strip(p, w + t) == w + Strip(p, t)
    decreases |w|
  {
    if |w| > 0 {
      var rest := w[1..] + t;
      assert Strip(p, w + t) == [w[0]] + Strip(p, rest) by {
        assert w + t == [w[0]] + rest;
        StripKeepsUnmatched(p, w[0], rest);
      }
      StripKeepsUnmatchedPrefix(p, w[1..], t);
      assert w == [w[0]] + w[1..];
    } else {
      assert w + t == t;
    }
  }

  /** The `javascript:` pass on `java` + `javascript:` + `u` deletes the
      inner match only and keeps the `java` in front of it. */
  lemma StripSchemeOnce(u: string)
    requires 'j' !in u && 'J' !in u
    ensures Strip(JavascriptScheme, "java" + (JAVASCRIPT_SCHEME + u)) == "java" + u
  {
    var t := JAVASCRIPT_SCHEME + u;
    assert t[0] == 'j';
    assert JAVASCRIPT_SCHEME[0] == 'j' && JAVASCRIPT_SCHEME[4] == 's';
    assert UnmatchedBefore(JavascriptScheme, "a", t) by {
      NoSchemeAt("a" + t, 0);
      assert "a"[1..] == [];
    }
    assert UnmatchedBefore(JavascriptScheme, "va", t) by {
      NoSchemeAt("va" + t, 0);
      assert "va"[1..] == "a";
    }
    assert UnmatchedBefore(JavascriptScheme, "ava", t) by {
      NoSchemeAt("ava" + t, 0);
      assert "ava"[1..] == "va";
    }
    assert UnmatchedBefore(JavascriptScheme, "java", t) by {
      assert ("java" + t)[4] == 'j';
      NoSchemeAt("java" + t, 4);
      assert "java"[1..] == "ava";
    }
    StripKeepsUnmatchedPrefix(JavascriptScheme, "java", t);
    StripLeadingScheme(u);
    SchemePassKeeps(u);
  }

  /** Text without a `j` or a `J` passes the `javascript:` deletion unchanged. */
  lemma SchemePassKeeps(u: string)
    requires 'j' !in u && 'J' !in u
    ensures Strip(JavascriptScheme, u) == u
  {
    NoLetterJNoScheme(u);
    StripWithoutMatch(JavascriptScheme, u);
  }

  /** Text without edge whitespace or angle brackets passes the first two steps unchanged. */
  lemma FirstStepsKeep(s: string)
    requires NoEdgeSpace(s) && '<' !in s && '>' !in s
    ensures Strip(AngleBracket, Trim(s)) == s
  {
    TrimDeletesOnly(s);
    BracketFreeKept(s);
  }

  /** Text without an `o` or an `O` passes the event-handler deletion unchanged. */
  lemma HandlerPassKeeps(u: string)
    requires 'o' !in u && 'O' !in u
    ensures Strip(EventHandler, u) == u
  {
    NoLetterONoHandler(u);
    StripWithoutMatch(EventHandler, u);
  }

  /** Deleting one `javascript:` can join its neighbours into a new one:
      the single left-to-right pass does not look at the text it has already
      passed. */
  lemma SanitizeRejoinsScheme(u: string)
    requires |u| > 0 && !IsSpace(u[|u| - 1])
    requires 'j' !in u && 'J' !in u && 'o' !in u && 'O' !in u && '<' !in u && '>' !in u
    ensures SanitizeInput("java" + (JAVASCRIPT_SCHEME + u)) == "java" + u
  {
    var s := "java" + (JAVASCRIPT_SCHEME + u);
    assert NoEdgeSpace(s) && '<' !in s && '>' !in s by {
      assert s[|s| - 1] == u[|u| - 1];
      assert forall k | 15 <= k < |s| :: s[k] == u[k - 15];
    }
    FirstStepsKeep(s);
    StripSchemeOnce(u);
    assert 'o' !in "java" + u && 'O' !in "java" + u by {
      assert 'o' !in "java" && 'O' !in "java";
    }
    HandlerPassKeeps("java" + u);
  }

  /** The instance that leaves a complete `javascript:` in the output. */
  lemma SanitizeCanLeaveScheme()
    ensures SanitizeInput("javajavascript:script:") == "javascript:"
  {
    assert "javajavascript:script:" == "java" + (JAVASCRIPT_SCHEME + "script:");
    assert "java" + "script:" == "javascript:";
    InertByIndex("script:");
    SanitizeRejoinsScheme("script:");
  }

  /** Angle-bracket matches are single characters, so the first deletion
      works piecewise on a concatenation. */
  lemma {:induction false} StripAngleBracketsAppend(a: string, b: string)
    ensures Strip(AngleBracket, a + b) == Strip(AngleBracket, a) + Strip(AngleBracket, b)
    decreases |a|
  {
    if |a| > 0 {
      assert (a + b)[1..] == a[1..] + b;
      StripAngleBracketsAppend(a[1..], b);
      if MatchLength(AngleBracket, a) == 0 {
        assert Strip(AngleBracket, a + b) == [a[0]] + Strip(AngleBracket, a[1..] + b);
      }
    } else {
      assert a + b == b;
    }
  }

  /** Text free of the sanitiser's trigger characters. */
  predicate Inert(s: string) {
    '<' !in s && '>' !in s && 'j' !in s && 'J' !in s && 'o' !in s && 'O' !in s
  }

  predicate IsTrigger(c: char) {
    c == '<' || c == '>' || c == 'j' || c == 'J' || c == 'o' || c == 'O'
  }

  /** `Inert` checked character by character. */
  lemma InertByIndex(s: string)
    requires forall i | 0 <= i < |s| :: !IsTrigger(s[i])
    ensures Inert(s)
  {
  }

  /** The first deletion on an element wrapped in tags. */
  lemma StripTagged(open: string, body: string, close: string)
    requires '<' !in open && '>' !in open && '<' !in body && '>' !in body && '<' !in close && '>' !in close
    ensures Strip(AngleBracket, "<" + open + ">" + body + "<" + close + ">") == open + body + close
  {
    var a1 := "<" + open;
    var a2 := a1 + ">";
    var a3 := a2 + body;
    var a4 := a3 + "<";
    var a5 := a4 + close;
    assert Strip(AngleBracket, "<") == [] && Strip(AngleBracket, ">") == [];
    BracketFreeKept(open);
    BracketFreeKept(body);
    BracketFreeKept(close);
    StripAngleBracketsAppend("<", open);
    assert Strip(AngleBracket, a1) == open;
    StripAngleBracketsAppend(a1, ">");
    assert Strip(AngleBracket, a2) == open;
    StripAngleBracketsAppend(a2, body);
    StripAngleBracketsAppend(a3, "<");
    assert Strip(AngleBracket, a4) == open + body;
    StripAngleBracketsAppend(a4, close);
    StripAngleBracketsAppend(a5, ">");
  }

  /** An element wrapped in tags loses its brackets and nothing else. */
  lemma SanitizeTagged(open: string, body: string, close: string)
    requires Inert(open) && Inert(body) && Inert(close)
    ensures SanitizeInput("<" + open + ">" + body + "<" + close + ">") == open + body + close
  {
    var s := "<" + open + ">" + body + "<" + close + ">";
    var plain := open + body + close;
    assert Trim(s) == s by {
      assert s[0] == '<' && s[|s| - 1] == '>';
      TrimDeletesOnly(s);
    }
    StripTagged(open, body, close);
    assert Inert(plain);
    SchemePassKeeps(plain);
    HandlerPassKeeps(plain);
  }

  /** The script tag example: angle brackets go, the rest stays. */
  lemma SanitizeScriptTag()
    ensures SanitizeInput("<script>alert(1)</script>") == "scriptalert(1)/script"
  {
    var open, body, close := "script", "alert(1)", "/script";
    assert "<" + open + ">" + body + "<" + close + ">" == "<script>alert(1)</script>";
    assert open + body + close == "scriptalert(1)/script";
    InertByIndex(open);
    InertByIndex(body);
    InertByIndex(close);
    SanitizeTagged(open, body, close);
  }

  lemma BracketFreeKept(s: string)
    requires '<' !in s && '>' !in s
    ensures Strip(AngleBracket, s) == s
  {
    NoBracketNoMatch(s);
    StripWithoutMatch(AngleBracket, s);
  }

  /** Every match of `javascript:` ends with a colon. */
  lemma NoColonNoScheme(s: string)
    requires ':' !in s
    ensures NoMatch(JavascriptScheme, s)
  {
    forall i, j | 0 <= i <= j <= |s|
      ensures !InLanguage(JavascriptScheme, s[i..j])
    {
      if j - i == |JAVASCRIPT_SCHEME| {
        assert s[i..j][10] == s[i + 10];
        assert FoldCase(s[i + 10]) != ':';
      }
    }
  }

  /** Every match of `on\w+=` ends with an equals sign. */
  lemma NoEqualsNoHandler(s: string)
    requires '=' !in s
    ensures NoMatch(EventHandler, s)
  {
    forall i, j | 0 <= i <= j <= |s|
      ensures !InLanguage(EventHandler, s[i..j])
    {
      if j > i {
        assert s[i..j][j - i - 1] == s[j - 1];
      }
    }
  }

  /** A single `<` in front of plain text is all the sanitiser removes. */
  lemma SanitizeDropsLeadingBracket(x: string)
    requires x != "" && NoEdgeSpace(x) && '<' !in x && '>' !in x && ':' !in x && '=' !in x
    ensures SanitizeInput("<" + x) == x
  {
    var m := "<" + x;
    assert Trim(m) == m by {
      assert m[0] == '<' && m[|m| - 1] == x[|x| - 1];
      TrimDeletesOnly(m);
    }
    assert Strip(AngleBracket, m) == x by {
      StripLeadingBracket(x);
    }
    assert Strip(JavascriptScheme, x) == x by {
      NoColonNoScheme(x);
      StripWithoutMatch(JavascriptScheme, x);
    }
    assert Strip(EventHandler, x) == x by {
      NoEqualsNoHandler(x);
      StripWithoutMatch(EventHandler, x);
    }
  }

  /** Text with no edge whitespace and none of `<`, `>`, `:`, `=` is stored as typed. */
  lemma SanitizeKeepsPlainText(s: string)
    requires NoEdgeSpace(s) && '<' !in s && '>' !in s && ':' !in s && '=' !in s
    ensures SanitizeInput(s) == s
  {
    NoColonNoScheme(s);
    NoEqualsNoHandler(s);
    SanitizeKeepsCleanInput(s);
  }

  /** Whitespace-only text sanitises to the empty string. */
  lemma SanitizeBlank(s: string)
    requires AllSpace(s)
    ensures SanitizeInput(s) == ""
  {
    assert LeadingSpaceCount(s) == |s|;
  }
}

=== FILE: text.dfy ===
/**
  Character classes and string helpers shared by the sanitiser and the
  validators of the contact endpoint: JavaScript's whitespace set, the
  regular-expression word class `\w`, ASCII case folding, `String.prototype.trim`
  and the "deletes characters only" relation (subsequence).
 */
module Text {

  /** A JavaScript WhiteSpace or LineTerminator code point. This one set is
      what `trim` removes and what the regular-expression class `\s` matches. */
  predicate IsSpace(c: char) {
    || c in {'\t', '\n', '\U{000B}', '\U{000C}', '\r', ' ', '\U{00A0}', '\U{1680}'}
    || c in {'\U{2028}', '\U{2029}', '\U{202F}', '\U{205F}', '\U{3000}', '\U{FEFF}'}
    || '\U{2000}' <= c <= '\U{200A}'
  }

  /** The regular-expression class `\w`: `[A-Za-z0-9_]`. */
  predicate IsWordChar(c: char) {
    || 'a' <= c <= 'z'
    || 'A' <= c <= 'Z'
    || '0' <= c <= '9'
    || c == '_'
  }

  /** Case folding of a regular expression with the `i` flag and without the
      `u` flag: a character folds to its upper case, except that a character
      outside ASCII never folds onto an ASCII one. Against the ASCII patterns
      of the sanitiser this is ASCII upper-casing. */
  function FoldCase(c: char): char {
    if 'a' <= c <= 'z' then (c as int - 32) as char else c
  }

  /** Every character of `t` is whitespace. */
  predicate AllSpace(t: string) {
    forall k | 0 <= k < |t| :: IsSpace(t[k])
  }

  /** `s` neither begins nor ends with whitespace. */
  predicate NoEdgeSpace(s: string) {
    |s| == 0 || (!IsSpace(s[0]) && !IsSpace(s[|s| - 1]))
  }

  /** Number of whitespace characters at the start of `s`. */
  function LeadingSpaceCount(s: string): (n: nat)
    ensures n <= |s|
    ensures AllSpace(s[..n])
    ensures n < |s| ==> !IsSpace(s[n])
  {
    if |s| > 0 && IsSpace(s[0]) then 1 + LeadingSpaceCount(s[1..]) else 0
  }

  /** Number of whitespace characters at the end of `s`. */
  function TrailingSpaceCount(s: string): (n: nat)
    ensures n <= |s|
    ensures AllSpace(s[|s| - n..])
    ensures n < |s| ==> !IsSpace(s[|s| - n - 1])
  {
    if |s| > 0 && IsSpace(s[|s| - 1]) then
      var n := 1 + TrailingSpaceCount(s[..|s| - 1]);
      assert s[|s| - n..] == s[..|s| - 1][|s| - n..] + [s[|s| - 1]];
      n
    else 0
  }

  /** `String.prototype.trim`: the longest middle part of `s` that neither
      starts nor ends with whitespace; everything dropped is whitespace. */
  function Trim(s: string): (r: string)
    ensures |r| <= |s|
    ensures LeadingSpaceCount(s) + |r| <= |s|
    ensures r == s[LeadingSpaceCount(s)..LeadingSpaceCount(s) + |r|]
    ensures AllSpace(s[..LeadingSpaceCount(s)])
    ensures AllSpace(s[LeadingSpaceCount(s) + |r|..])
    ensures NoEdgeSpace(r)
  {
    var lead := LeadingSpaceCount(s);
    var t := s[lead..];
    var trail := TrailingSpaceCount(t);
    var r := t[..|t| - trail];
    assert r == s[lead..lead + |r|];
    assert s[lead + |r|..] == t[|t| - trail..];
    assert |r| > 0 ==> r[0] == t[0] && r[|r| - 1] == t[|t| - trail - 1];
    r
  }

  /** `a` is obtained from `b` by deleting characters. */
  predicate IsSubseq(a: string, b: string)
    decreases |b|
  {
    if |b| == 0 then |a| == 0
    else (|a| > 0 && a[0] == b[0] && IsSubseq(a[1..], b[1..])) || IsSubseq(a, b[1..])
  }

  lemma {:induction false} SubseqLength(a: string, b: string)
    requires IsSubseq(a, b)
    ensures |a| <= |b|
    decreases |b|
  {
    if |b| > 0 {
      if |a| > 0 && a[0] == b[0] && IsSubseq(a[1..], b[1..]) {
        SubseqLength(a[1..], b[1..]);
      } else {
        SubseqLength(a, b[1..]);
      }
    }
  }

  lemma {:induction false} SubseqTrans(a: string, b: string, c: string)
    requires IsSubseq(a, b) && IsSubseq(b, c)
    ensures IsSubseq(a, c)
    decreases |c|
  {
    if |c| > 0 {
      if |b| > 0 && b[0] == c[0] && IsSubseq(b[1..], c[1..]) {
        if |a| > 0 && a[0] == b[0] && IsSubseq(a[1..], b[1..]) {
          SubseqTrans(a[1..], b[1..], c[1..]);
        } else {
          SubseqTrans(a, b[1..], c[1..]);
        }
      } else {
        SubseqTrans(a, b, c[1..]);
      }
    }
  }

  /** A character absent from `b` is absent from everything obtained from `b` by deletion. */
  lemma {:induction false} SubseqExcludes(a: string, b: string, x: char)
    requires IsSubseq(a, b) && x !in b
    ensures x !in a
    decreases |b|
  {
    if |b| > 0 {
      assert x !in b[1..] by {
        assert forall k | 0 <= k < |b| - 1 :: b[1..][k] == b[k + 1];
      }
      if |a| > 0 && a[0] == b[0] && IsSubseq(a[1..], b[1..]) {
        SubseqExcludes(a[1..], b[1..], x);
        assert a == [a[0]] + a[1..];
      } else {
        SubseqExcludes(a, b[1..], x);
      }
    }
  }

  /** Keeping the first character on both sides preserves the relation. */
  lemma SubseqCons(x: char, a: string, b: string)
    requires IsSubseq(a, b)
    ensures IsSubseq([x] + a, [x] + b)
  {
    assert ([x] + a)[1..] == a;
    assert ([x] + b)[1..] == b;
  }

  /** Deleting a prefix of `b` leaves something `b` can be reduced to. */
  lemma {:induction false} SubseqOfSuffix(a: string, b: string, i: nat)
    requires i <= |b| && IsSubseq(a, b[i..])
    ensures IsSubseq(a, b)
    decreases i
  {
    if i > 0 {
      assert b[i..] == b[1..][i - 1..];
      SubseqOfSuffix(a, b[1..], i - 1);
    }
  }

  lemma {:induction false} PrefixIsSubseq(s: string, j: nat)
    requires j <= |s|
    ensures IsSubseq(s[..j], s)
    decreases |s|
  {
    if |s| > 0 {
      if j > 0 {
        assert s[..j][1..] == s[1..][..j - 1];
        PrefixIsSubseq(s[1..], j - 1);
      } else {
        PrefixIsSubseq(s[1..], 0);
        assert s[1..][..0] == s[..0];
      }
    }
  }

  /** A contiguous slice is obtained by deletion. */
  lemma SliceIsSubseq(s: string, i: nat, j: nat)
    requires i <= j <= |s|
    ensures IsSubseq(s[i..j], s)
  {
    assert s[i..j] == s[i..][..j - i];
    PrefixIsSubseq(s[i..], j - i);
    SubseqOfSuffix(s[i..j], s, i);
  }

  /** Trimming only deletes characters, and leaves a string without edge whitespace as it is. */
  lemma TrimDeletesOnly(s: string)
    ensures IsSubseq(Trim(s), s)
    ensures NoEdgeSpace(s) ==> Trim(s) == s
  {
    var lead := LeadingSpaceCount(s);
    SliceIsSubseq(s, lead, lead + |Trim(s)|);
    if NoEdgeSpace(s) && |s| > 0 {
      assert lead == 0;
    }
  }
}

=== FILE: validation.dfy ===
/**
  The two validators of the contact endpoint: `isValidEmail`, the regular
  expression `^[^\s@]+@[^\s@]+\.[^\s@]+$`, and `isValidMessage`, a length
  window. The contact page checks the same two rules, on the raw values
  before sanitising, before it submits.
 */
module Validation {
  import opened Text

  const MIN_MESSAGE_LENGTH: nat := 10
  const MAX_MESSAGE_LENGTH: nat := 1000

  /** The class `[^\s@]`. */
  predicate AddressChar(c: char) {
    !IsSpace(c) && c != '@'
  }

  predicate AllAddressChars(t: string) {
    forall k | 0 <= k < |t| :: AddressChar(t[k])
  }

  /** `s` matches `^[^\s@]+@[^\s@]+\.[^\s@]+$` with its `@` at `at` and the
      literal `.` at `dot`. */
  predicate EmailSplit(s: string, at: int, dot: int) {
    && 0 < at && at + 1 < dot && dot + 1 < |s|
    && s[at] == '@' && s[dot] == '.'
    && AllAddressChars(s[..at])
    && AllAddressChars(s[at + 1..dot])
    && AllAddressChars(s[dot + 1..])
  }

  /** `isValidEmail`: some choice of the `@` and the `.` makes the regular
      expression match the whole string. */
  predicate IsValidEmail(s: string) {
    exists at, dot | 0 < at < dot < |s| :: EmailSplit(s, at, dot)
  }

  /** `isValidMessage`. */
  predicate IsValidMessage(m: string) {
    MIN_MESSAGE_LENGTH <= |m| <= MAX_MESSAGE_LENGTH
  }

  predicate NoWhitespace(s: string) {
    forall k | 0 <= k < |s| :: !IsSpace(s[k])
  }

  /** The only `@` of `s` is at index `at`. */
  predicate SoleAtSign(s: string, at: int) {
    0 <= at < |s| && s[at] == '@' && forall k | 0 <= k < |s| && k != at :: s[k] != '@'
  }

  /** The domain `s[from..]` holds a `.` that is neither its first nor its last character. */
  predicate InnerDot(s: string, from: int) {
    exists dot | 0 <= from < dot < |s| - 1 :: s[dot] == '.'
  }

  /** The shape of an accepted address, stated without the regular expression:
      no whitespace, exactly one `@`, something before it, and a dot inside
      the part after it. */
  predicate WellFormedAddress(s: string) {
    NoWhitespace(s) && exists at | 0 < at < |s| :: SoleAtSign(s, at) && InnerDot(s, at + 1)
  }

  lemma EmailRegexShape(s: string)
    ensures IsValidEmail(s) <==> WellFormedAddress(s)
  {
    if IsValidEmail(s) {
      var at, dot :| 0 < at < dot < |s| && EmailSplit(s, at, dot);
      forall k | 0 <= k < |s|
        ensures !IsSpace(s[k]) && (k != at ==> s[k] != '@')
      {
        if k < at {
          assert s[..at][k] == s[k];
        } else if at < k < dot {
          assert s[at + 1..dot][k - at - 1] == s[k];
        } else if dot < k {
          assert s[dot + 1..][k - dot - 1] == s[k];
        }
      }
      assert SoleAtSign(s, at) && InnerDot(s, at + 1);
    }
    if WellFormedAddress(s) {
      var at :| 0 < at < |s| && SoleAtSign(s, at) && InnerDot(s, at + 1);
      var dot :| at + 1 < dot < |s| - 1 && s[dot] == '.';
      assert EmailSplit(s, at, dot);
    }
  }

  /** The address from the form's example is accepted; a string without an `@` is not. */
  lemma EmailExamples()
    ensures IsValidEmail("jo@x.com")
    ensures !IsValidEmail("not-an-email")
  {
    assert EmailSplit("jo@x.com", 2, 4) by {
      var s := "jo@x.com";
      assert s[..2] == "jo" && s[3..4] == "x" && s[5..] == "com";
    }
    EmailRegexShape("not-an-email");
    assert '@' !in "not-an-email";
  }
}

=== FILE: wrappers.dfy ===
/** The optional-value type used where JavaScript has `null` or `undefined`. */
module Wrappers {

  /** A value that may be absent. */
  datatype Option<+T> = None | Some(value: T)
}
